=== FILE: README.md ===
# SCD Type-2 product dimension merge

This project models the core of a small ETL repository. The core is a Slowly
Changing Dimension (Type 2) merge that keeps the full version history of each
product in the table `product_dim`.

Each processed batch of product records is merged into the table one record
at a time, and each record takes one of three paths:

- **New product.** The snapshot of current versions has no row for the
  product, so the record is inserted as a current version that starts today.
- **Unchanged.** No tracked column (`product_name`, `category`, `price`,
  `currency`) differs in its textual form, so nothing is written.
- **Changed.** The version found in the snapshot is closed by its surrogate
  key (`end_date` = yesterday, `is_current` = 0). The record is then
  inserted as a new current version that starts today.

The snapshot of current versions is read once when the batch starts. It is
read again only after a new-product insert (line 68); it is not re-read after
the changed path. The whole batch runs in one transaction. The pipeline merges
the processed Parquet files in name order, one transaction per file, and
stops at the first file whose transaction fails.

Modules:

- `Outcome` (`outcome.dfy`): `Result`, the outcome of work a rejected record
  rolls back.
- `Dimension` (`dimension.dfy`): the row shape of `product_dim` and the
  queries the merge uses: the current rows, the rows of one product, and the
  next AUTOINCREMENT key. It also holds the `UPDATE` that closes a version
  by key, and the facts about these after an append or an update.
- `ChangeDetection` (`change_detection.dfy`): the loop over the tracked
  columns, and the classification of a record against the snapshot.
- `ScdMerge` (`scd_merge.dfy`): `apply_scd_for_df` as written. This is a
  left fold over the batch that threads the table and the snapshot, with
  all-or-nothing commit. It includes the history, one-current-version,
  idempotence and stale-snapshot properties.
- `ScdFresh` (`scd_fresh.dfy`): the corrected merge, which re-reads the
  current versions before every record (see Findings).
- `Pipeline` (`pipeline.dfy`): `run_scd_pipeline`. It picks the
  `*.parquet` files, sorts them by name and folds a batch merge over them.
  The merge is either the one as written or the corrected one, chosen by a
  `Merger` parameter.

Modelling choices:

- Dates are integer day numbers.
- The table is a sequence of rows in rowid order.
- A new row's key is one more than the largest key in use. SQLite's
  AUTOINCREMENT hands out the same key here, because the merge never
  deletes a row.
- Attribute values are their textual renderings, which is what the change
  detection compares.
- `float(row["price"])` on the two insert paths is the only exception the
  merge raises on a record, apart from a missing column (see Left out).
  Whether `float()` accepts a price is the parameter `Env.priceConverts`, and
  a rejection rolls back the whole batch.
- `datetime.utcnow()` is the parameter `Env.stamp`.
- `date.today()` is the parameter `Env.today`.
- A version can end on the day before it starts (`end_date` = today - 1,
  `start_date` = today). This happens whenever a version written today is
  closed the same day. Among the ways this arises:
  - a later file of the same run, or a second run on the same day, changes
    the product again (`Pipeline.SameDayTwiceInverted`);
  - within one batch, a changed record is compared with a version written
    earlier in the batch. The snapshot holds that version after any
    new-product insert has re-read it, whichever product that insert was
    for;
  - in the corrected merge, a later record differs from the version an
    earlier record of its product wrote.

  `ScdMerge.WrittenOn` admits such rows.

Three behaviours of the code that a reader might expect otherwise:

- **Missing tracked column.** `row[attr]` (line 75) and `row["product_name"]`
  and the like (lines 61-64) raise `KeyError` for a column the batch lacks,
  so the model's `Incoming` always carries the four tracked values.
- **Failed batch in a run.** `run_scd_pipeline` calls `apply_scd_for_df`
  for each file without catching an exception (lines 115-117), so
  `RunFiles` ends the run with `Stopped` at the first rolled-back batch.
  Earlier batches stay committed and later files are not merged.
- **Re-closing a closed row.** The `UPDATE ... WHERE product_key = :pk`
  (lines 84-91) does not test `is_current`, so it closes a closed row again,
  overwriting its `end_date`; `CloseVersion` does the same.

## Model

| member | source | states |
|---|---|---|
| Dimension.CurrentRows | scripts/scd_type2.py:33-35 | A row is in the snapshot exactly when it is in the table and has `is_current` set. |
| Dimension.CurrentOf | scripts/scd_type2.py:49 | A row is among a product's current versions exactly when it is a current row of the table with that `product_id`. |
| Dimension.NextKey | scripts/scd_type2.py:20 | The key the next insert receives is positive and larger than every key in use. |
| Dimension.CloseVersion | scripts/scd_type2.py:84-91 | The UPDATE keeps the table's length. Every row whose key is `k` gets `end_date` = day and `is_current` = 0. Every other row is left as it was. |
| Dimension.CloseKeepsKeysUnique | scripts/scd_type2.py:20 | Closing a version keeps the primary key unique. |
| Dimension.AppendKeepsKeysUnique | scripts/scd_type2.py:20 | Appending a row whose key exceeds every key in use keeps the primary key unique. |
| Dimension.CurrentOfAppend | scripts/scd_type2.py:53-58 | An inserted row joins the current versions of its own product when it is current, and of no other product. |
| Dimension.CurrentOfClose | scripts/scd_type2.py:84-91 | Closing key `k` removes exactly the version with key `k` from every product's current versions. |
| Dimension.CloseOtherProduct | scripts/scd_type2.py:84-91 | With unique keys, closing one product's version leaves every other product's current versions unchanged. |
| Dimension.CloseOnlyCurrent | scripts/scd_type2.py:84-91 | Closing a product's only current version leaves the product with none. |
| ChangeDetection.DetectChange | scripts/scd_type2.py:73-77 | The loop over the four tracked columns, which stops at the first difference, reports a change exactly when some tracked column differs. Equivalently, it reports a change exactly when the tracked values are unequal. |
| ChangeDetection.DiffersIffUnequal | scripts/scd_type2.py:74-76 | The tracked columns differ in some position exactly when the two tuples of tracked values are unequal. |
| ChangeDetection.Classify | scripts/scd_type2.py:48-81 | A record is New exactly when the snapshot has no row for its id. It is Unchanged exactly when the first such row has equal tracked values. When it is Changed, the row it names is that first row and has different values. |
| ChangeDetection.ClassifiedAgainst | scripts/scd_type2.py:49-72 | The row a record is compared with is a snapshot row of the record's own product. |
| ChangeDetection.ClassifyIgnoresUntracked | scripts/scd_type2.py:74 | Two records with equal id and tracked values are classified alike, whatever their other columns hold. |
| ScdMerge.InsertNewWrites | scripts/scd_type2.py:52-67 | The new-product insert appends exactly one row and leaves every earlier row as it was. The new row has the record's id and values, `start_date` = today, `end_date` NULL, is current, and has a key above every key in use. |
| ScdMerge.CloseAndInsertWrites | scripts/scd_type2.py:84-107 | The changed path closes the rows keyed by the current version's key on today − 1 and no other row. It appends one row with the record's values that is open and current from today, under a fresh key. |
| ScdMerge.InsertNew | scripts/scd_type2.py:52-67 | The new-product INSERT adds exactly one row. |
| ScdMerge.CloseAndInsert | scripts/scd_type2.py:84-107 | The UPDATE followed by the INSERT adds exactly one row. |
| ScdMerge.CloseAndInsertKeepsKeysUnique | scripts/scd_type2.py:84-107 | The changed path keeps the primary key unique, because the UPDATE changes no key and the INSERT uses a fresh one. |
| ScdMerge.CloseAndInsertOtherProduct | scripts/scd_type2.py:84-107 | With unique keys, the changed path for one product leaves every other product's current versions as they were. |
| ScdMerge.InsertNewEffect | scripts/scd_type2.py:52-67 | Inserting a product with no current version gives it exactly the new version as current. Every other product's current versions stay as they were, and keys stay unique. |
| ScdMerge.CloseAndInsertEffect | scripts/scd_type2.py:84-107 | Replacing a product's only current version leaves exactly the new version current for that product. Every other product's current versions stay as they were, and keys stay unique. |
| ScdMerge.ChangedOnce | scripts/scd_type2.py:84-107 | The closed version's key is below the new key, and the product's only current version is the inserted one. |
| ScdMerge.CurrentOfCloseAndInsert | scripts/scd_type2.py:84-107 | After the changed path, each product's current versions are its old ones minus the closed key. The record's product also gains the new version. |
| ScdMerge.Step | scripts/scd_type2.py:47-107 | One record: if its price converts, the step succeeds. A failure carries the record's id and price, and only happens when the price does not convert. The table grows by one row unless the record is unchanged. |
| ScdMerge.StepNew | scripts/scd_type2.py:52-69 | A new product is inserted, and the snapshot is re-read from the new table. |
| ScdMerge.StepUnchanged | scripts/scd_type2.py:79-81 | An unchanged record leaves the table and the snapshot as they were. |
| ScdMerge.StepChanged | scripts/scd_type2.py:84-107 | A changed record is closed and re-inserted, and the snapshot is not re-read. |
| ScdMerge.StepRejected | scripts/scd_type2.py:63-103 | A record that must be inserted but whose price does not convert fails the step with that record's id and price. |
| ScdMerge.StepIgnoresUntracked | scripts/scd_type2.py:74-77 | Records that differ only in untracked columns, such as `updated_at` or `_ingest_ts`, are merged identically. |
| ScdMerge.MergeRows | scripts/scd_type2.py:47-107 | A successful fold reports one kind per record, and grows the table by exactly the number of records whose kind is not Unchanged. What each kind is, is stated by `ScdMerge.MergeRowsKinds`. |
| ScdMerge.MergeRowsKinds | scripts/scd_type2.py:47-81 | In a successful fold, the kind reported for record `i` is its classification against the snapshot the fold holds after the records before it. |
| ScdMerge.MergeBatch | scripts/scd_type2.py:43-107 | A committed batch reports one kind per record. Its table has exactly as many more rows as there are records whose kind is not Unchanged. `ScdMerge.BatchKinds` states what each kind is. |
| ScdMerge.MergeRowsRejection | scripts/scd_type2.py:63-103 | With every price convertible the fold succeeds. A failed fold names a record of the batch whose price does not convert. An unconvertible price need not fail it, since an unchanged record is never converted. |
| ScdMerge.BatchAllOrNothing | scripts/scd_type2.py:43-107 | A batch commits when every price converts. A rolled-back batch leaves the table exactly as it was, and its reason names a record of the batch whose price does not convert. |
| ScdMerge.StepExtends | scripts/scd_type2.py:52-107 | One record deletes no row and changes no key. It changes an old row only by closing it on today − 1, and any row it adds was written today under a fresh key. |
| ScdMerge.ExtendsTransitive | scripts/scd_type2.py:47 | History extension composes over consecutive records. |
| ScdMerge.MergeRowsExtends | scripts/scd_type2.py:47-107 | A whole fold deletes no row and reassigns no key. It changes old rows only by closing them on today − 1 and adds only rows written today. |
| ScdMerge.BatchExtends | scripts/scd_type2.py:43-107 | After a batch, the store's table extends the old one as above. It grows by exactly the number of records whose reported kind is not Unchanged, and is unchanged when the batch rolls back. |
| ScdMerge.StepTracks | scripts/scd_type2.py:47-107 | One record of a distinct batch keeps the fold invariant: the snapshot is accurate for products still to come, and every merged product has one current version carrying its values. |
| ScdMerge.MergeRowsTracks | scripts/scd_type2.py:45-107 | The fold invariant holds after every prefix of a batch without repeated products. |
| ScdMerge.BatchOneCurrent | scripts/scd_type2.py:45-107 | Start with unique keys and at most one current version per product, and merge a batch with distinct ids. Then every product of the batch has exactly one current version carrying the batch's values, and every other product keeps its current versions. |
| ScdMerge.KindAgainstStart | scripts/scd_type2.py:45-68 | In a batch of distinct products, the snapshot a record meets has the same rows for its product as the snapshot taken when the batch started, so the record is classified the same against both. |
| ScdMerge.BatchKinds | scripts/scd_type2.py:45-81 | Start with unique keys and at most one current version per product, and commit a batch with distinct ids. Then each record's kind is its classification against the current rows of the table the batch started from: New, Unchanged or Changed exactly as the starting table says. |
| ScdMerge.MergeRowsAllUnchanged | scripts/scd_type2.py:79-81 | A fold in which every record is unchanged succeeds, classifies all records as unchanged and changes nothing. |
| ScdMerge.BatchIdempotent | scripts/scd_type2.py:47-81 | Merging a committed distinct-id batch a second time, on any day, commits. It classifies every record as unchanged and leaves the table exactly as it was. |
| ScdMerge.ChangedAgainstStale | scripts/scd_type2.py:84-107 | When the product's only current version is `v` and the changed path closes a different key, `v` stays current and the inserted version joins it: the product has two current versions. |
| ScdMerge.ChangedTwiceTwoCurrent | scripts/scd_type2.py:84-107 | Two changed paths against the same snapshot row leave both inserted versions current. |
| ScdMerge.StaleSnapshotTwoCurrent | scripts/scd_type2.py:45-107 | A batch with two changed records for one product commits with two current versions of that product. |
| ScdFresh.StepFresh | scripts/scd_type2.py:47-107 | The corrected step, which classifies against the table's current rows, succeeds when the price converts. It fails only on an unconvertible price, naming the record. |
| ScdFresh.StepFreshAgrees | scripts/scd_type2.py:47-107 | When the snapshot equals the table's current rows, the step as written and the corrected step succeed together and write the same table. |
| ScdFresh.MergeBatchFresh | scripts/scd_type2.py:43-107 | The corrected fold reports one kind per record of a committed batch. `ScdFresh.MergeBatchFreshKinds` states what each kind is. |
| ScdFresh.MergeBatchFreshKinds | scripts/scd_type2.py:47-81 | In a committed corrected batch, record `i`'s kind is its classification against the current rows of the table the records before it committed. |
| ScdFresh.MergeBatchFreshRejection | scripts/scd_type2.py:63-103 | With every price convertible the corrected batch commits. A rolled-back corrected batch names a record of the batch whose price does not convert, with that record's id and price. |
| ScdFresh.MergeRowsMatchesFresh | scripts/scd_type2.py:45-107 | Over records of products not yet merged, while the fold invariant holds, the fold as written and the corrected fold commit together, with the same table and kinds, and roll back with the same reason. |
| ScdFresh.FreshAgreesOnDistinct | scripts/scd_type2.py:43-107 | On a batch of distinct products, starting from unique keys and at most one current version per product, the corrected merge has exactly the outcome of the merge as written. |
| ScdFresh.StepFreshKeeps | scripts/scd_type2.py:47-107 | One corrected step keeps keys unique and at most one current version per product. It settles the record's product on the record's values and leaves every other product's current versions alone. |
| ScdFresh.LastForRest | scripts/scd_type2.py:47 | Moving past the first record keeps the "last record for its product" property of every later record, and the ids of the rest are ids of the batch. |
| ScdFresh.MergeBatchFreshKeeps | scripts/scd_type2.py:45-107 | With repeated products allowed, the corrected batch keeps keys unique and at most one current version per product. The last record of each product is the one whose values are current, and products outside the batch are untouched. |
| ScdFresh.MergeBatchFreshExtends | scripts/scd_type2.py:47-107 | The corrected merge only extends history, like the merge as written. |
| ScdFresh.FreshSettlesRepeatedProduct | scripts/scd_type2.py:45-107 | On the input that gives two current versions as written, the corrected merge leaves exactly one, carrying the second record's values. |
| Pipeline.ParquetFiles | scripts/scd_type2.py:110 | A file is picked exactly when it is in the directory and its name ends in `.parquet`. |
| Pipeline.ParquetFilesCounts | scripts/scd_type2.py:110 | Each Parquet file of the directory is picked exactly as often as it occurs there, and no other file is picked. |
| Pipeline.NameAtMostTotal | scripts/scd_type2.py:110 | The name order is total. |
| Pipeline.InsertByName | scripts/scd_type2.py:110 | Inserting into a name-sorted list keeps it sorted and adds exactly the one file. |
| Pipeline.SortByName | scripts/scd_type2.py:110 | The files come out in name order and as a permutation of the input. |
| Pipeline.SortKeepsMembers | scripts/scd_type2.py:110 | Sorting neither drops nor adds a file. |
| Pipeline.SortKeepsFiles | scripts/scd_type2.py:110-113 | There is something to merge exactly when the directory holds a Parquet file. |
| Pipeline.Merge | scripts/scd_type2.py:117 | Either batch merge, when committed, reports one kind per record of the batch, as `ScdMerge.BatchKinds` and `ScdFresh.MergeBatchFreshKinds` describe. |
| Pipeline.MergeExtends | scripts/scd_type2.py:117 | Either batch merge only extends history, and a rolled-back batch leaves the table as it was. |
| Pipeline.MergeOneCurrent | scripts/scd_type2.py:117 | Both merges keep unique keys and at most one current version per product. The merge as written does so only when the batch has distinct products. |
| Pipeline.RunFiles | scripts/scd_type2.py:115-117 | A run over a list of files always finishes or stops. It never reports that there was nothing to do. Where it stops is stated by `Pipeline.RunStopsAtRejectedFile`, and what a finished run did by `Pipeline.RunFinishedCommittedAll`. |
| Pipeline.RunFinishedCommittedAll | scripts/scd_type2.py:115-117 | A run that finishes merged every file in order: each file's batch committed against the table the files before it left, so no failing file is skipped. |
| Pipeline.MergeCommitsConvertible | scripts/scd_type2.py:117 | Either merge commits a batch whose every price converts. |
| Pipeline.RunConvertibleFinishes | scripts/scd_type2.py:115-117 | A run over files whose every price converts finishes rather than stops. |
| Pipeline.RunPipeline | scripts/scd_type2.py:109-119 | The pipeline does nothing exactly when no file of the directory is a Parquet file. |
| Pipeline.PipelineMergesSortedParquet | scripts/scd_type2.py:109-117 | The list the pipeline runs over is sorted by name and holds exactly the directory's Parquet files, each as often as it occurs; when it is non-empty the pipeline's result is the run over that list. |
| Pipeline.RunStopsAtRejectedFile | scripts/scd_type2.py:115-117 | A run that stops names a file of the run whose batch rolls back, with that batch's reason. The files before it all committed, ending at the stopped run's table, and that table is the one the failed batch was rolled back against, so no later file was merged. |
| Pipeline.RunExtends | scripts/scd_type2.py:115-117 | A run over files deletes no row and reassigns no key. |
| Pipeline.RunOneCurrent | scripts/scd_type2.py:115-117 | Unique keys and at most one current version per product survive a run. With the merge as written this needs every file to hold distinct products; with the corrected merge it needs nothing. |
| Pipeline.PipelineExtends | scripts/scd_type2.py:109-119 | Whatever the directory holds, the pipeline only extends history. |
| Pipeline.ChangeBatch | scripts/scd_type2.py:84-107 | A one-record batch that changes a product's only current version commits that close and insert. |
| Pipeline.RunTwoCommitted | scripts/scd_type2.py:115-117 | Two files whose batches commit leave the table the second batch produced. |
| Pipeline.SameDayTwiceInverted | scripts/scd_type2.py:39-41 | Suppose two files of one run both change a product. The version the first file opens starts today and is closed by the second on today − 1, so it ends before it starts. |

## Left out

- SQLite and SQLAlchemy are left out: the engine, the SQL text and `pd.read_sql`. The table is an in-memory sequence, and the transaction is the choice between the committed table and the old one.
- The `ensure_table` DDL and its `CREATE TABLE IF NOT EXISTS` are left out. Only the row shape and the AUTOINCREMENT primary key are modelled.
- pandas iteration, `iloc` and Parquet reading are left out. A batch is a sequence of records, and a directory is a sequence of named files.
- `date.today()`, `datetime.utcnow()` and ISO date formatting are parameters. A run has one `today`, although each batch calls `date.today()` again, so a run across midnight is not modelled.
- `float(row["price"])` and the Python rendering of floats are left out. The stored price is the record's textual price. The model assumes a price that converts renders back as the same text. Whether it converts is the parameter `Env.priceConverts`.
- ScdMerge.Step: does not model that a price such as `10` can be stored as `10.0` and then compare as changed on every later run. That depends on pandas dtypes and float formatting.
- ScdMerge.BatchIdempotent: holds for the model's textual prices only. With an integer price such as `10`, stored as `10.0`, the code re-merges the record as changed on every run, for the reason given on the line above.
- NULL attribute values and NaN prices are not modelled. All four tracked values are strings.
- A `KeyError` for a missing column in a record is not modelled, because the record type always has the four tracked values.
- `print` messages and the module-level `mkdir` are left out.
- `scripts/process.py` and `scripts/ingest_raw.py` are not part of this model. They are pandas and file-copy wrappers upstream of the merge.
- Pipeline.SortByName: path order is modelled as code-point order on the file name alone. This matches `sorted` on paths of one directory on POSIX only; on Windows paths compare case-folded and the glob ignores case, which is not modelled.
- Dimension.NextKey: keys are unbounded `nat`s. `product_key` is a 64-bit SQLite rowid, and AUTOINCREMENT fails with `SQLITE_FULL` once the largest rowid is in use; that failure is not modelled.

## Findings

| source | as written | input that shows it | evidently intended | confidence | as-written member | corrected member |
|---|---|---|---|---|---|---|
| scripts/scd_type2.py:45-107 | The snapshot of current versions is re-read after a new-product insert (line 68) but not after the changed path. A second record for the same product, when no new-product record comes between them, is compared with the version just closed, and the UPDATE re-closes that row instead of the new one. | A product with one current version, and a batch of two records for it whose values both differ from that version | After the batch the product has exactly one current version, carrying the last record's values | not executed; medium | ScdMerge.StaleSnapshotTwoCurrent | ScdFresh.MergeBatchFreshKeeps |

=== FILE: change_detection.dfy ===
/**
 * Per-record classification of an incoming record against the snapshot of
 * current versions: a new product, an unchanged one, or a changed one.
 */
module ChangeDetection {
  import opened Dimension

  /** The tracked columns, in the order the comparison visits them. */
  const Tracked: seq<Attr> := [ProductName, Category, Price, Currency]

  /** Some tracked column's textual value differs between the two versions. */
  predicate Differs(incoming: Attrs, current: Attrs)
  {
    exists i :: 0 <= i < |Tracked| && incoming.Get(Tracked[i]) != current.Get(Tracked[i])
  }

  /** Every tracked column is visited, so a difference is exactly an inequality of the tracked values. */
  lemma DiffersIffUnequal(incoming: Attrs, current: Attrs)
    ensures Differs(incoming, current) <==> incoming != current
  {
    if incoming != current {
      if incoming.productName != current.productName {
        assert incoming.Get(Tracked[0]) != current.Get(Tracked[0]);
      } else if incoming.category != current.category {
        assert incoming.Get(Tracked[1]) != current.Get(Tracked[1]);
      } else if incoming.price != current.price {
        assert incoming.Get(Tracked[2]) != current.Get(Tracked[2]);
      } else {
        assert incoming.Get(Tracked[3]) != current.Get(Tracked[3]);
      }
    }
  }

  /**
   * The comparison loop: visit the tracked columns in order and stop at the
   * first whose textual values differ.
   */
  method DetectChange(incoming: Attrs, current: Attrs) returns (changed: bool)
    ensures changed <==> Differs(incoming, current)
    ensures changed <==> incoming != current
  {
    DiffersIffUnequal(incoming, current);
    changed := false;
    var i := 0;
    while i < |Tracked|
      invariant 0 <= i <= |Tracked|
      invariant !changed ==> forall j :: 0 <= j < i ==> incoming.Get(Tracked[j]) == current.Get(Tracked[j])
      invariant changed ==> Differs(incoming, current)
    {
      var attr := Tracked[i];
      if incoming.Get(attr) != current.Get(attr) {
        changed := true;
        break;
      }
      i := i + 1;
    }
  }

  /** The three outcomes of comparing a record with the snapshot. */
  datatype Kind = New | Unchanged | Changed(current: Row)

  /**
   * Decide what the merge does with `rec`: a new product when the snapshot
   * has no row for its id; otherwise the first such row is compared with the
   * record, and the record is unchanged exactly when no tracked value differs.
   */
  function Classify(snapshot: Table, rec: Incoming): (k: Kind)
    ensures var m := Matches(snapshot, rec.productId);
            && (k == New <==> |m| == 0)
            && (k == Unchanged <==> |m| > 0 && m[0].attrs == rec.attrs)
            && (k.Changed? ==> k.current == m[0] && k.current.attrs != rec.attrs)
  {
    var m := Matches(snapshot, rec.productId);
    if |m| == 0 then New
    else
      var cur := m[0];
      DiffersIffUnequal(rec.attrs, cur.attrs);
      if Differs(rec.attrs, cur.attrs) then Changed(cur) else Unchanged
  }

  /** The snapshot row a record is compared with belongs to the record's product. */
  lemma ClassifiedAgainst(snapshot: Table, rec: Incoming)
    requires !Classify(snapshot, rec).New?
    ensures var m := Matches(snapshot, rec.productId);
            m[0] in snapshot && m[0].productId == rec.productId
  {
    var m := Matches(snapshot, rec.productId);
    assert m[0] in m;
  }

  /** Columns outside the tracked four never influence the classification. */
  lemma ClassifyIgnoresUntracked(snapshot: Table, a: Incoming, b: Incoming)
    requires a.productId == b.productId && a.attrs == b.attrs
    ensures Classify(snapshot, a) == Classify(snapshot, b)
  {
  }
}

=== FILE: dimension.dfy ===
/**
 * The versioned product dimension table `product_dim`: its row shape, the
 * queries the merge reads it with, and the two writes it performs on it
 * (appending a new version, closing a version by its surrogate key).
 *
 * The table is a sequence of rows in rowid order. Dates are integer day
 * numbers; attribute values are their textual renderings, which is what the
 * change detection compares.
 *
 * The filtering queries are defined over a prefix length `n` rather than by
 * slicing, so each is a fold over the rows `t[0], ..., t[n-1]`.
 */
module Dimension {

  /** The four tracked columns whose change opens a new version. */
  datatype Attr = ProductName | Category | Price | Currency

  /** The tracked attribute values of a record or a version row. */
  datatype Attrs = Attrs(productName: string, category: string, price: string, currency: string)
  {
    /** The value of one tracked column. */
    function Get(a: Attr): string
    {
      match a
      case ProductName => productName
      case Category => category
      case Price => price
      case Currency => currency
    }
  }

  /** The `end_date` column: NULL while the version is open, else the last day it was valid. */
  datatype EndDate = Open | EndsOn(day: int)

  /**
   * One version of one product. `key` is the surrogate `product_key`,
   * `endDate` is NULL while the version is open, `createdAt` is an audit
   * value nothing reads.
   */
  datatype Row = Row(key: nat, productId: string, attrs: Attrs, startDate: int,
                     endDate: EndDate, isCurrent: bool, createdAt: string)
  {
    /** This version after it stops being current on `day`. */
    function Closed(day: int): Row
    {
      this.(endDate := EndsOn(day), isCurrent := false)
    }
  }

  /**
   * One record of an incoming batch: the product id, the tracked values and
   * every other column of the batch (such as `updated_at` or `_ingest_ts`).
   */
  datatype Incoming = Incoming(productId: string, attrs: Attrs, others: map<string, string>)

  type Table = seq<Row>

  /** No two rows share a surrogate key (the PRIMARY KEY constraint). */
  ghost predicate KeysUnique(t: Table)
  {
    forall i, j :: 0 <= i < |t| && 0 <= j < |t| && t[i].key == t[j].key ==> i == j
  }

  // ---------------------------------------------------------------------------
  // Queries
  // ---------------------------------------------------------------------------

  /** The current rows among the first `n` rows of `t`, in table order. */
  function CurrentUpTo(t: Table, n: nat): (s: Table)
    requires n <= |t|
    ensures |s| <= n
    ensures forall r {:trigger r in s} :: r in s ==> r in t && r.isCurrent
    ensures forall i :: 0 <= i < n && t[i].isCurrent ==> t[i] in s
    decreases n
  {
    if n == 0 then []
    else CurrentUpTo(t, n - 1) + (if t[n - 1].isCurrent then [t[n - 1]] else [])
  }

  /** The rows with `is_current = 1`, in table order: what `fetch_current_dim` reads. */
  function CurrentRows(t: Table): (s: Table)
    ensures |s| <= |t|
    ensures forall r {:trigger r in s} :: r in s <==> r in t && r.isCurrent
  {
    CurrentUpTo(t, |t|)
  }

  /** The rows among the first `n` rows of `s` whose `product_id` is `id`, in order. */
  function MatchesUpTo(s: Table, id: string, n: nat): (m: Table)
    requires n <= |s|
    ensures |m| <= n
    ensures forall r {:trigger r in m} :: r in m ==> r in s && r.productId == id
    ensures forall i :: 0 <= i < n && s[i].productId == id ==> s[i] in m
    decreases n
  {
    if n == 0 then []
    else MatchesUpTo(s, id, n - 1) + (if s[n - 1].productId == id then [s[n - 1]] else [])
  }

  /** The rows of `s` whose `product_id` is `id`, in order. */
  function Matches(s: Table, id: string): (m: Table)
    ensures |m| <= |s|
    ensures forall r {:trigger r in m} :: r in m <==> r in s && r.productId == id
  {
    MatchesUpTo(s, id, |s|)
  }

  /** The current versions of product `id`. */
  function CurrentOf(t: Table, id: string): (c: Table)
    ensures forall r {:trigger r in c} :: r in c <==> r in t && r.isCurrent && r.productId == id
  {
    Matches(CurrentRows(t), id)
  }

  /** No product has two current versions. */
  ghost predicate AtMostOneCurrent(t: Table)
  {
    forall id :: |CurrentOf(t, id)| <= 1
  }

  /** The rows among the first `n` rows of `s` whose surrogate key is not `k`. */
  function WithoutKeyUpTo(s: Table, k: nat, n: nat): (u: Table)
    requires n <= |s|
    ensures forall r {:trigger r in u} :: r in u ==> r in s && r.key != k
    ensures forall i :: 0 <= i < n && s[i].key != k ==> s[i] in u
    decreases n
  {
    if n == 0 then []
    else WithoutKeyUpTo(s, k, n - 1) + (if s[n - 1].key != k then [s[n - 1]] else [])
  }

  /** The rows of `s` whose surrogate key is not `k`. */
  function WithoutKey(s: Table, k: nat): (u: Table)
    ensures forall r {:trigger r in u} :: r in u <==> r in s && r.key != k
  {
    WithoutKeyUpTo(s, k, |s|)
  }

  /** The largest surrogate key among the first `n` rows, 0 when there are none. */
  function MaxKeyUpTo(t: Table, n: nat): (m: nat)
    requires n <= |t|
    ensures forall i :: 0 <= i < n ==> t[i].key <= m
    ensures n == 0 ==> m == 0
    decreases n
  {
    if n == 0 then 0
    else
      var m := MaxKeyUpTo(t, n - 1);
      if t[n - 1].key > m then t[n - 1].key else m
  }

  /** The largest surrogate key in use, 0 for an empty table. */
  function MaxKey(t: Table): (m: nat)
    ensures forall r :: r in t ==> r.key <= m
    ensures |t| == 0 ==> m == 0
  {
    MaxKeyUpTo(t, |t|)
  }

  /** The key AUTOINCREMENT gives the next inserted row: one past every key in use. */
  function NextKey(t: Table): (k: nat)
    ensures forall r :: r in t ==> r.key < k
    ensures k >= 1
  {
    MaxKey(t) + 1
  }

  // ---------------------------------------------------------------------------
  // The UPDATE of the changed path
  // ---------------------------------------------------------------------------

  /**
   * `UPDATE product_dim SET end_date = day, is_current = 0 WHERE product_key = k`:
   * the rows with key `k` are closed on `day`, every other row is left alone.
   */
  function CloseVersion(t: Table, k: nat, day: int): (u: Table)
    ensures |u| == |t|
    ensures forall i {:trigger u[i]} :: 0 <= i < |t| && t[i].key != k ==> u[i] == t[i]
    ensures forall i {:trigger u[i]} :: 0 <= i < |t| && t[i].key == k ==> u[i] == t[i].Closed(day)
  {
    seq(|t|, i requires 0 <= i < |t| => if t[i].key == k then t[i].Closed(day) else t[i])
  }

  // ---------------------------------------------------------------------------
  // Facts about keys
  // ---------------------------------------------------------------------------

  /** Two rows of a table with unique keys that share a key are the same row. */
  lemma SameKeySameRow(t: Table, a: Row, b: Row)
    requires KeysUnique(t)
    requires a in t && b in t && a.key == b.key
    ensures a == b
  {
    var i :| 0 <= i < |t| && t[i] == a;
    var j :| 0 <= j < |t| && t[j] == b;
  }

  /** The largest key of a prefix depends only on the keys in that prefix. */
  lemma {:induction false} MaxKeyUpToSameKeys(t: Table, u: Table, n: nat)
    requires n <= |t| && n <= |u|
    requires forall i :: 0 <= i < n ==> t[i].key == u[i].key
    ensures MaxKeyUpTo(t, n) == MaxKeyUpTo(u, n)
    decreases n
  {
    if n > 0 {
      MaxKeyUpToSameKeys(t, u, n - 1);
    }
  }

  /** Closing a version changes no key, so the largest key stays the same. */
  lemma CloseKeepsMaxKey(t: Table, k: nat, day: int)
    ensures MaxKey(CloseVersion(t, k, day)) == MaxKey(t)
  {
    MaxKeyUpToSameKeys(CloseVersion(t, k, day), t, |t|);
  }

  /** Closing a version changes no key, so the table keeps unique keys. */
  lemma CloseKeepsKeysUnique(t: Table, k: nat, day: int)
    requires KeysUnique(t)
    ensures KeysUnique(CloseVersion(t, k, day))
  {
    var u := CloseVersion(t, k, day);
    assert forall i :: 0 <= i < |t| ==> u[i].key == t[i].key;
  }

  /** Appending a row whose key exceeds every key in use keeps keys unique. */
  lemma AppendKeepsKeysUnique(t: Table, r: Row)
    requires KeysUnique(t)
    requires forall o :: o in t ==> o.key < r.key
    ensures KeysUnique(t + [r])
  {
    var u := t + [r];
    forall i, j | 0 <= i < |u| && 0 <= j < |u| && u[i].key == u[j].key
      ensures i == j
    {
      if i < |t| { assert t[i] in t; }
      if j < |t| { assert t[j] in t; }
    }
  }

  // ---------------------------------------------------------------------------
  // The queries after an append
  // ---------------------------------------------------------------------------

  /** The current rows of a prefix depend only on the rows in that prefix. */
  lemma {:induction false} CurrentUpToSamePrefix(t: Table, u: Table, n: nat)
    requires n <= |t| && n <= |u|
    requires forall i :: 0 <= i < n ==> t[i] == u[i]
    ensures CurrentUpTo(t, n) == CurrentUpTo(u, n)
    decreases n
  {
    if n > 0 {
      CurrentUpToSamePrefix(t, u, n - 1);
    }
  }

  /** The matching rows of a prefix depend only on the rows in that prefix. */
  lemma {:induction false} MatchesUpToSamePrefix(t: Table, u: Table, id: string, n: nat)
    requires n <= |t| && n <= |u|
    requires forall i :: 0 <= i < n ==> t[i] == u[i]
    ensures MatchesUpTo(t, id, n) == MatchesUpTo(u, id, n)
    decreases n
  {
    if n > 0 {
      MatchesUpToSamePrefix(t, u, id, n - 1);
    }
  }

  /** The rows kept by a key filter over a prefix depend only on the rows in that prefix. */
  lemma {:induction false} WithoutKeyUpToSamePrefix(t: Table, u: Table, k: nat, n: nat)
    requires n <= |t| && n <= |u|
    requires forall i :: 0 <= i < n ==> t[i] == u[i]
    ensures WithoutKeyUpTo(t, k, n) == WithoutKeyUpTo(u, k, n)
    decreases n
  {
    if n > 0 {
      WithoutKeyUpToSamePrefix(t, u, k, n - 1);
    }
  }

  /** Appending one row adds it to the current rows exactly when it is current. */
  lemma CurrentRowsAppend(t: Table, r: Row)
    ensures CurrentRows(t + [r]) == CurrentRows(t) + (if r.isCurrent then [r] else [])
  {
    CurrentUpToSamePrefix(t + [r], t, |t|);
  }

  /** Appending one row adds it to the rows of `id` exactly when it belongs to `id`. */
  lemma MatchesAppend(s: Table, x: Row, id: string)
    ensures Matches(s + [x], id) == Matches(s, id) + (if x.productId == id then [x] else [])
  {
    MatchesUpToSamePrefix(s + [x], s, id, |s|);
  }

  /** Filtering out key `k` distributes over appending one row. */
  lemma WithoutKeyAppend(c: Table, x: Row, k: nat)
    ensures WithoutKey(c + [x], k) == WithoutKey(c, k) + (if x.key != k then [x] else [])
  {
    WithoutKeyUpToSamePrefix(c + [x], c, k, |c|);
  }

  /** A key filter that matches no row of a prefix keeps that prefix as it is. */
  lemma {:induction false} WithoutAbsentKey(s: Table, k: nat, n: nat)
    requires n <= |s|
    requires forall i :: 0 <= i < n ==> s[i].key != k
    ensures |WithoutKeyUpTo(s, k, n)| == n
    ensures forall i :: 0 <= i < n ==> WithoutKeyUpTo(s, k, n)[i] == s[i]
    decreases n
  {
    if n > 0 {
      WithoutAbsentKey(s, k, n - 1);
      var w := WithoutKeyUpTo(s, k, n - 1);
      assert WithoutKeyUpTo(s, k, n) == w + [s[n - 1]];
    }
  }

  /** Filtering out a key no row of `s` has leaves `s` unchanged. */
  lemma WithoutKeyNone(s: Table, k: nat)
    requires forall r :: r in s ==> r.key != k
    ensures WithoutKey(s, k) == s
  {
    forall i | 0 <= i < |s| ensures s[i].key != k
    {
      assert s[i] in s;
    }
    WithoutAbsentKey(s, k, |s|);
  }

  /** Filtering a single row by key keeps it exactly when its key differs. */
  lemma WithoutKeySingle(x: Row, k: nat)
    ensures WithoutKey([x], k) == if x.key == k then [] else [x]
  {
    WithoutKeyAppend([], x, k);
    assert [] + [x] == [x];
  }

  /** `MatchesAppend` for a row that is appended only when `keep` holds. */
  lemma MatchesAppendIf(s: Table, x: Row, id: string, keep: bool)
    ensures Matches(s + (if keep then [x] else []), id)
            == Matches(s, id) + (if keep && x.productId == id then [x] else [])
  {
    if keep {
      MatchesAppend(s, x, id);
      assert Matches(s, id) + [] == Matches(s, id);
    } else {
      assert s + [] == s;
      assert Matches(s, id) + [] == Matches(s, id);
    }
  }

  /** `WithoutKeyAppend` for a row that is appended only when `keep` holds. */
  lemma WithoutKeyAppendIf(s: Table, x: Row, k: nat, keep: bool)
    ensures WithoutKey(s + (if keep then [x] else []), k)
            == WithoutKey(s, k) + (if keep && x.key != k then [x] else [])
  {
    if keep {
      WithoutKeyAppend(s, x, k);
      assert WithoutKey(s, k) + [] == WithoutKey(s, k);
    } else {
      assert s + [] == s;
      assert WithoutKey(s, k) + [] == WithoutKey(s, k);
    }
  }

  /** Appending one row adds it to the current versions of its product and of no other. */
  lemma CurrentOfAppend(t: Table, r: Row, id: string)
    ensures CurrentOf(t + [r], id)
            == CurrentOf(t, id) + (if r.isCurrent && r.productId == id then [r] else [])
  {
    CurrentRowsAppend(t, r);
    MatchesAppendIf(CurrentRows(t), r, id, r.isCurrent);
  }

  // ---------------------------------------------------------------------------
  // The queries after the UPDATE
  // ---------------------------------------------------------------------------

  /**
   * Over every prefix, closing the version with key `k` removes exactly that
   * version from the current versions of `id`.
   */
  lemma {:induction false} CurrentOfCloseUpTo(t: Table, k: nat, day: int, id: string, n: nat)
    requires n <= |t|
    ensures Matches(CurrentUpTo(CloseVersion(t, k, day), n), id)
            == WithoutKey(Matches(CurrentUpTo(t, n), id), k)
    decreases n
  {
    if n > 0 {
      CurrentOfCloseUpTo(t, k, day, id, n - 1);
      var c := CloseVersion(t, k, day);
      var x := t[n - 1];
      var a := CurrentUpTo(c, n - 1);
      var b := CurrentUpTo(t, n - 1);
      var mb := Matches(b, id);
      var keepC := x.isCurrent && x.key != k;
      assert CurrentUpTo(c, n) == a + (if keepC then [x] else []) by {
        assert c[n - 1].isCurrent == keepC;
        assert keepC ==> c[n - 1] == x;
      }
      assert CurrentUpTo(t, n) == b + (if x.isCurrent then [x] else []);
      MatchesAppendIf(a, x, id, keepC);
      MatchesAppendIf(b, x, id, x.isCurrent);
      WithoutKeyAppendIf(mb, x, k, x.isCurrent && x.productId == id);
    }
  }

  /**
   * Closing the version with key `k` removes exactly that version from the
   * current versions of every product.
   */
  lemma CurrentOfClose(t: Table, k: nat, day: int, id: string)
    ensures CurrentOf(CloseVersion(t, k, day), id) == WithoutKey(CurrentOf(t, id), k)
  {
    CurrentOfCloseUpTo(t, k, day, id, |t|);
  }

  /** If the current versions of `id` avoid key `k`, closing `k` leaves them as they are. */
  lemma CloseOtherProduct(t: Table, cur: Row, day: int, id: string)
    requires KeysUnique(t)
    requires cur in t && cur.productId != id
    ensures CurrentOf(CloseVersion(t, cur.key, day), id) == CurrentOf(t, id)
  {
    CurrentOfClose(t, cur.key, day, id);
    forall r | r in CurrentOf(t, id) ensures r.key != cur.key
    {
      if r.key == cur.key {
        SameKeySameRow(t, r, cur);
      }
    }
    WithoutKeyNone(CurrentOf(t, id), cur.key);
  }

  /** Closing the only current version of `id` leaves `id` with none. */
  lemma CloseOnlyCurrent(t: Table, cur: Row, day: int)
    requires CurrentOf(t, cur.productId) == [cur]
    ensures CurrentOf(CloseVersion(t, cur.key, day), cur.productId) == []
  {
    CurrentOfClose(t, cur.key, day, cur.productId);
    WithoutKeySingle(cur, cur.key);
  }
}

=== FILE: outcome.dfy ===
/** Success/failure results, used for work that a rejected record rolls back. */
module Outcome {

  /** The outcome of a unit of work that may be rejected. */
  datatype Result<+R, +E> = Success(value: R) | Failure(error: E)
}

=== FILE: pipeline.dfy ===
/**
 * `run_scd_pipeline`: every processed Parquet file of the directory, in
 * name order, is merged as one batch with its own transaction. A batch
 * that is rolled back ends the run; the batches before it stay committed.
 *
 * The run is stated for either batch merge: the one as written, whose
 * snapshot goes stale after a changed record, and the corrected one.
 */
module Pipeline {
  import opened Outcome
  import opened Dimension
  import opened ChangeDetection
  import opened ScdMerge
  import opened ScdFresh

  /** One file of the processed directory: its name and the records it holds. */
  datatype File = File(name: string, batch: seq<Incoming>)

  /** Which batch merge the run applies. */
  datatype Merger = AsWritten | Corrected

  /** One batch merged by the chosen merge. */
  function Merge(m: Merger, t: Table, batch: seq<Incoming>, env: Env): (o: BatchOutcome)
    ensures o.Committed? ==> |o.kinds| == |batch|
  {
    match m
    case AsWritten => MergeBatch(t, batch, env)
    case Corrected => MergeBatchFresh(t, batch, env)
  }

  /** Either merge only extends history and leaves the table alone when it rolls back. */
  lemma MergeExtends(m: Merger, t: Table, batch: seq<Incoming>, env: Env)
    ensures var o := Merge(m, t, batch, env);
            Extends(t, Stored(t, o), env.today) && (o.RolledBack? ==> Stored(t, o) == t)
  {
    match m
    case AsWritten =>
      BatchExtends(t, batch, env);
    case Corrected =>
      if MergeBatchFresh(t, batch, env).Committed? {
        MergeBatchFreshExtends(t, batch, env);
      } else {
        assert Extends(t, t, env.today);
      }
  }

  /**
   * Either merge keeps unique keys and at most one current version per
   * product; the merge as written only for a batch of distinct products.
   */
  lemma MergeOneCurrent(m: Merger, t: Table, batch: seq<Incoming>, env: Env)
    requires KeysUnique(t) && AtMostOneCurrent(t)
    requires m == AsWritten ==> DistinctIds(batch)
    requires Merge(m, t, batch, env).Committed?
    ensures var u := Merge(m, t, batch, env).table;
            KeysUnique(u) && AtMostOneCurrent(u)
  {
    match m
    case AsWritten => BatchOneCurrent(t, batch, env);
    case Corrected => MergeBatchFreshKeeps(t, batch, env);
  }

  /** The end of a run. */
  datatype Run =
    | NothingToDo
    | Finished(table: Table)
    | Stopped(table: Table, failed: string, reason: Rejection)

  // ---------------------------------------------------------------------------
  // Choosing and ordering the files
  // ---------------------------------------------------------------------------

  const Suffix: string := ".parquet"

  /** The name matches `*.parquet`: it ends in the suffix, case-sensitively. */
  predicate IsParquet(name: string)
  {
    |Suffix| <= |name| && name[|name| - |Suffix|..] == Suffix
  }

  /** The files `glob("*.parquet")` yields, in directory order. */
  function ParquetFiles(dir: seq<File>): (fs: seq<File>)
    ensures forall f {:trigger f in fs} :: f in fs <==> f in dir && IsParquet(f.name)
  {
    if |dir| == 0 then []
    else (if IsParquet(dir[0].name) then [dir[0]] else []) + ParquetFiles(dir[1..])
  }

  /** Each Parquet file of the directory is picked as often as it occurs there, and no other file is. */
  lemma {:induction false} ParquetFilesCounts(dir: seq<File>)
    ensures forall f: File :: multiset(ParquetFiles(dir))[f]
                        == if IsParquet(f.name) then multiset(dir)[f] else 0
    decreases |dir|
  {
    if |dir| > 0 {
      ParquetFilesCounts(dir[1..]);
      assert dir == [dir[0]] + dir[1..];
      assert multiset(dir) == multiset{dir[0]} + multiset(dir[1..]);
    }
  }

  /** `a` comes no later than `b` in code-point lexicographic order. */
  predicate NameAtMost(a: string, b: string)
  {
    |a| == 0 || (|b| > 0 && (a[0] < b[0] || (a[0] == b[0] && NameAtMost(a[1..], b[1..]))))
  }

  /** Any two names are ordered one way or the other. */
  lemma {:induction false} NameAtMostTotal(a: string, b: string)
    ensures NameAtMost(a, b) || NameAtMost(b, a)
  {
    if |a| > 0 && |b| > 0 && a[0] == b[0] {
      NameAtMostTotal(a[1..], b[1..]);
    }
  }

  /** Each file's name comes no later than the next file's. */
  ghost predicate SortedByName(fs: seq<File>)
  {
    forall i :: 0 < i < |fs| ==> NameAtMost(fs[i - 1].name, fs[i].name)
  }

  /** `f` placed into the sorted `fs` before the first file whose name it comes no later than. */
  function InsertByName(f: File, fs: seq<File>): (r: seq<File>)
    requires SortedByName(fs)
    ensures SortedByName(r)
    ensures multiset(r) == multiset(fs) + multiset{f}
    ensures |r| == |fs| + 1
    ensures r[0] == f || (|fs| > 0 && r[0] == fs[0])
  {
    if |fs| == 0 then [f]
    else if NameAtMost(f.name, fs[0].name) then
      SortedCons(f, fs);
      [f] + fs
    else
      NameAtMostTotal(f.name, fs[0].name);
      var rest := InsertByName(f, fs[1..]);
      assert fs == [fs[0]] + fs[1..];
      SortedCons(fs[0], rest);
      [fs[0]] + rest
  }

  /** A file that comes no later than the head of a sorted list can be put in front of it. */
  lemma SortedCons(f: File, fs: seq<File>)
    requires SortedByName(fs)
    requires |fs| > 0 ==> NameAtMost(f.name, fs[0].name)
    ensures SortedByName([f] + fs)
  {
    var r := [f] + fs;
    assert forall i :: 0 <= i < |fs| ==> r[i + 1] == fs[i];
  }

  /** `sorted(...)`: the files in name order, none lost and none added. */
  function SortByName(fs: seq<File>): (r: seq<File>)
    ensures SortedByName(r)
    ensures multiset(r) == multiset(fs)
  {
    if |fs| == 0 then []
    else
      assert fs == [fs[0]] + fs[1..];
      InsertByName(fs[0], SortByName(fs[1..]))
  }

  // ---------------------------------------------------------------------------
  // The run
  // ---------------------------------------------------------------------------

  /** The batches merged one after another; a rolled-back batch ends the run. */
  function RunFiles(m: Merger, t: Table, fs: seq<File>, env: Env): (r: Run)
    ensures !r.NothingToDo?
    decreases |fs|
  {
    if |fs| == 0 then Finished(t)
    else
      match Merge(m, t, fs[0].batch, env)
      case RolledBack(e) => Stopped(t, fs[0].name, e)
      case Committed(u, _) => RunFiles(m, u, fs[1..], env)
  }

  /** `run_scd_pipeline`: nothing to do without Parquet files, else merge them in name order. */
  function RunPipeline(m: Merger, t: Table, dir: seq<File>, env: Env): (r: Run)
    ensures r.NothingToDo? <==> forall f :: f in dir ==> !IsParquet(f.name)
  {
    var fs := SortByName(ParquetFiles(dir));
    SortKeepsFiles(dir);
    if |fs| == 0 then NothingToDo
    else
      RunFiles(m, t, fs, env)
  }

  /** A file is among the sorted files exactly when it is among the given ones. */
  lemma SortKeepsMembers(fs: seq<File>, f: File)
    ensures f in SortByName(fs) <==> f in fs
  {
    var r := SortByName(fs);
    assert f in r <==> f in multiset(r);
    assert f in fs <==> f in multiset(fs);
  }

  /** The run has files to merge exactly when the directory holds a Parquet file. */
  lemma SortKeepsFiles(dir: seq<File>)
    ensures |SortByName(ParquetFiles(dir))| == 0 <==> forall f :: f in dir ==> !IsParquet(f.name)
  {
    var pf := ParquetFiles(dir);
    var r := SortByName(pf);
    if |r| > 0 {
      SortKeepsMembers(pf, r[0]);
      assert r[0] in r;
    } else {
      forall f | f in dir
        ensures !IsParquet(f.name)
      {
        SortKeepsMembers(pf, f);
      }
    }
  }

  /** The table the store holds after a run. */
  function Final(t: Table, r: Run): Table
  {
    if r.NothingToDo? then t else r.table
  }

  /**
   * A run stops only at a file of the run whose batch is rolled back against
   * the table committed so far, and with that batch's reason; the files before
   * it all committed, and none after it was merged.
   */
  lemma {:induction false} RunStopsAtRejectedFile(m: Merger, t: Table, fs: seq<File>, env: Env)
    ensures var r := RunFiles(m, t, fs, env);
            r.Stopped? ==>
              exists i :: 0 <= i < |fs| && fs[i].name == r.failed
                          && RunFiles(m, t, fs[..i], env) == Finished(r.table)
                          && Merge(m, r.table, fs[i].batch, env) == RolledBack(r.reason)
    decreases |fs|
  {
    if |fs| > 0 {
      var r := RunFiles(m, t, fs, env);
      var o := Merge(m, t, fs[0].batch, env);
      if o.RolledBack? {
        assert fs[0].name == r.failed;
        assert RunFiles(m, t, fs[..0], env) == Finished(t);
      } else {
        RunStopsAtRejectedFile(m, o.table, fs[1..], env);
        if r.Stopped? {
          var i :| 0 <= i < |fs[1..]| && fs[1..][i].name == r.failed
                   && RunFiles(m, o.table, fs[1..][..i], env) == Finished(r.table)
                   && Merge(m, r.table, fs[1..][i].batch, env) == RolledBack(r.reason);
          assert fs[i + 1] == fs[1..][i];
          RunFilesCommittedFirst(m, t, fs[..i + 1], env);
          assert fs[..i + 1][1..] == fs[1..][..i];
        }
      }
    }
  }

  /** A run whose first file commits continues from the committed table. */
  lemma RunFilesCommittedFirst(m: Merger, t: Table, fs: seq<File>, env: Env)
    requires |fs| > 0 && Merge(m, t, fs[0].batch, env).Committed?
    ensures RunFiles(m, t, fs, env) == RunFiles(m, Merge(m, t, fs[0].batch, env).table, fs[1..], env)
  {
  }

  /**
   * A run that finishes merged every file, in order: each file's batch
   * committed against the table the files before it left.
   */
  lemma {:induction false} RunFinishedCommittedAll(m: Merger, t: Table, fs: seq<File>, env: Env)
    requires RunFiles(m, t, fs, env).Finished?
    ensures forall i :: 0 <= i < |fs| ==>
              && RunFiles(m, t, fs[..i], env).Finished?
              && Merge(m, RunFiles(m, t, fs[..i], env).table, fs[i].batch, env).Committed?
    decreases |fs|
  {
    if |fs| > 0 {
      var o := Merge(m, t, fs[0].batch, env);
      assert o.Committed?;
      RunFinishedCommittedAll(m, o.table, fs[1..], env);
      forall i | 0 <= i < |fs|
        ensures RunFiles(m, t, fs[..i], env).Finished?
        ensures Merge(m, RunFiles(m, t, fs[..i], env).table, fs[i].batch, env).Committed?
      {
        if i == 0 {
          assert fs[..0] == [];
        } else {
          RunFilesCommittedFirst(m, t, fs[..i], env);
          assert fs[..i][1..] == fs[1..][..i - 1];
          assert fs[i] == fs[1..][i - 1];
        }
      }
    }
  }

  /** Either merge commits a batch whose every price `float()` accepts. */
  lemma MergeCommitsConvertible(m: Merger, t: Table, batch: seq<Incoming>, env: Env)
    requires forall j :: 0 <= j < |batch| ==> env.priceConverts(batch[j].attrs.price)
    ensures Merge(m, t, batch, env).Committed?
  {
    match m
    case AsWritten => BatchAllOrNothing(t, batch, env);
    case Corrected => MergeBatchFreshRejection(t, batch, env);
  }

  /** A run over files whose every price `float()` accepts finishes. */
  lemma {:induction false} RunConvertibleFinishes(m: Merger, t: Table, fs: seq<File>, env: Env)
    requires forall i, j :: 0 <= i < |fs| && 0 <= j < |fs[i].batch| ==>
               env.priceConverts(fs[i].batch[j].attrs.price)
    ensures RunFiles(m, t, fs, env).Finished?
    decreases |fs|
  {
    if |fs| > 0 {
      MergeCommitsConvertible(m, t, fs[0].batch, env);
      var o := Merge(m, t, fs[0].batch, env);
      assert forall i :: 0 <= i < |fs[1..]| ==> fs[1..][i] == fs[i + 1];
      RunConvertibleFinishes(m, o.table, fs[1..], env);
    }
  }

  /** Over a whole run, rows are never deleted and keys never reassigned. */
  lemma {:induction false} RunExtends(m: Merger, t: Table, fs: seq<File>, env: Env)
    ensures Extends(t, Final(t, RunFiles(m, t, fs, env)), env.today)
    decreases |fs|
  {
    ExtendsSelf(t, env.today);
    if |fs| > 0 {
      MergeExtends(m, t, fs[0].batch, env);
      var o := Merge(m, t, fs[0].batch, env);
      if o.Committed? {
        RunExtends(m, o.table, fs[1..], env);
        ExtendsTransitive(t, o.table, Final(t, RunFiles(m, t, fs, env)), env.today);
      }
    }
  }

  /**
   * A run that starts with unique keys and at most one current version per
   * product ends so, provided, for the merge as written, that every file's
   * batch holds distinct products. The corrected merge needs no proviso.
   */
  lemma {:induction false} RunOneCurrent(m: Merger, t: Table, fs: seq<File>, env: Env)
    requires KeysUnique(t) && AtMostOneCurrent(t)
    requires m == AsWritten ==> forall i :: 0 <= i < |fs| ==> DistinctIds(fs[i].batch)
    ensures var u := Final(t, RunFiles(m, t, fs, env));
            KeysUnique(u) && AtMostOneCurrent(u)
    decreases |fs|
  {
    if |fs| > 0 {
      var o := Merge(m, t, fs[0].batch, env);
      if o.Committed? {
        MergeOneCurrent(m, t, fs[0].batch, env);
        assert forall i :: 0 <= i < |fs[1..]| ==> fs[1..][i] == fs[i + 1];
        RunOneCurrent(m, o.table, fs[1..], env);
      }
    }
  }

  /**
   * The pipeline merges exactly the directory's Parquet files, each as often
   * as it occurs, in name order, one after another.
   */
  lemma PipelineMergesSortedParquet(m: Merger, t: Table, dir: seq<File>, env: Env)
    ensures var fs := SortByName(ParquetFiles(dir));
            && SortedByName(fs)
            && (forall f: File :: multiset(fs)[f] == if IsParquet(f.name) then multiset(dir)[f] else 0)
            && (|fs| > 0 ==> RunPipeline(m, t, dir, env) == RunFiles(m, t, fs, env))
  {
    ParquetFilesCounts(dir);
  }

  /** The whole pipeline keeps history: whatever the directory holds, the table is only extended. */
  lemma PipelineExtends(m: Merger, t: Table, dir: seq<File>, env: Env)
    ensures Extends(t, Final(t, RunPipeline(m, t, dir, env)), env.today)
  {
    var fs := SortByName(ParquetFiles(dir));
    ExtendsSelf(t, env.today);
    if |fs| > 0 {
      RunExtends(m, t, fs, env);
    }
  }

  // ---------------------------------------------------------------------------
  // Two changes of one product on one day
  // ---------------------------------------------------------------------------

  /** A one-record batch that changes a product's only current version closes it and inserts the record. */
  lemma ChangeBatch(m: Merger, t: Table, cur: Row, rec: Incoming, env: Env)
    requires CurrentOf(t, cur.productId) == [cur]
    requires rec.productId == cur.productId && rec.attrs != cur.attrs
    requires env.priceConverts(rec.attrs.price)
    ensures Merge(m, t, [rec], env) == Committed(CloseAndInsert(t, cur, rec, env), [Changed(cur)])
  {
    var snap := CurrentRows(t);
    var u := CloseAndInsert(t, cur, rec, env);
    assert Matches(snap, rec.productId) == [cur];
    DiffersIffUnequal(rec.attrs, cur.attrs);
    assert Classify(snap, rec) == Changed(cur);
    StepChanged(State(t, snap), rec, env, cur);
    assert [rec][1..] == [];
    assert MergeRows(State(u, snap), [], env) == Success(Pass(State(u, snap), []));
    assert MergeBatchFresh(u, [], env) == Committed(u, []);
    assert StepFresh(t, rec, env) == Success(u);
    assert [Changed(cur)] + [] == [Changed(cur)];
  }

  /** Two files whose batches both commit: the run finishes with the second batch's table. */
  lemma RunTwoCommitted(m: Merger, t: Table, f1: File, f2: File, env: Env)
    requires Merge(m, t, f1.batch, env).Committed?
    requires Merge(m, Merge(m, t, f1.batch, env).table, f2.batch, env).Committed?
    ensures RunFiles(m, t, [f1, f2], env)
            == Finished(Merge(m, Merge(m, t, f1.batch, env).table, f2.batch, env).table)
  {
    var fs := [f1, f2];
    var t1 := Merge(m, t, f1.batch, env).table;
    var t2 := Merge(m, t1, f2.batch, env).table;
    assert fs[1..] == [f2];
    assert [f2][1..] == [];
    assert RunFiles(m, t2, [], env) == Finished(t2);
    assert RunFiles(m, t1, [f2], env) == Finished(t2);
  }

  /**
   * Two files of one run that both change a product: the version the first
   * opens today is closed by the second on the day before today, so it ends
   * before it starts.
   */
  lemma SameDayTwiceInverted(m: Merger, t: Table, cur: Row, r1: Incoming, r2: Incoming, env: Env,
                             n1: string, n2: string)
    requires CurrentOf(t, cur.productId) == [cur]
    requires r1.productId == cur.productId && r2.productId == cur.productId
    requires r1.attrs != cur.attrs && r2.attrs != r1.attrs
    requires env.priceConverts(r1.attrs.price) && env.priceConverts(r2.attrs.price)
    ensures var r := RunFiles(m, t, [File(n1, [r1]), File(n2, [r2])], env);
            && r.Finished?
            && |r.table| == |t| + 2
            && r.table[|t|].productId == cur.productId
            && r.table[|t|].startDate == env.today
            && r.table[|t|].endDate == EndsOn(env.today - 1)
  {
    var t1 := CloseAndInsert(t, cur, r1, env);
    var v := NewVersion(t, r1, env);
    var t2 := CloseAndInsert(t1, v, r2, env);
    assert Merge(m, t, [r1], env) == Committed(t1, [Changed(cur)]) by {
      ChangeBatch(m, t, cur, r1, env);
    }
    assert Merge(m, t1, [r2], env) == Committed(t2, [Changed(v)]) by {
      ChangedOnce(t, cur, r1, env);
      ChangeBatch(m, t1, v, r2, env);
    }
    RunTwoCommitted(m, t, File(n1, [r1]), File(n2, [r2]), env);
    assert t2[|t|] == v.Closed(env.today - 1) by {
      assert t1[|t|] == v;
      CloseAndInsertWrites(t1, v, r2, env);
    }
  }
}

=== FILE: scd_fresh.dfy ===
/**
 * The merge with the snapshot re-read after every write, not only after a
 * new-product insert. Each record is then compared with the current
 * versions as they stand after the records before it, so a product may
 * occur several times in one batch: each occurrence that differs closes the
 * current version, which may be one an earlier occurrence opened, and the
 * last occurrence's values end up current.
 */
module ScdFresh {
  import opened Outcome
  import opened Dimension
  import opened ChangeDetection
  import opened ScdMerge

  /** One record merged against the current versions of the table as it stands. */
  function StepFresh(t: Table, rec: Incoming, env: Env): (r: Result<Table, Rejection>)
    ensures env.priceConverts(rec.attrs.price) ==> r.Success?
    ensures r.Failure? ==>
              r.error == PriceNotConvertible(rec.productId, rec.attrs.price)
              && !env.priceConverts(rec.attrs.price)
  {
    match Classify(CurrentRows(t), rec)
    case New =>
      if !env.priceConverts(rec.attrs.price) then
        Failure(PriceNotConvertible(rec.productId, rec.attrs.price))
      else
        Success(InsertNew(t, rec, env))
    case Unchanged =>
      Success(t)
    case Changed(cur) =>
      if !env.priceConverts(rec.attrs.price) then
        Failure(PriceNotConvertible(rec.productId, rec.attrs.price))
      else
        Success(CloseAndInsert(t, cur, rec, env))
  }

  /** Against an accurate snapshot, the merge as written takes the same step. */
  lemma StepFreshAgrees(t: Table, rec: Incoming, env: Env)
    ensures var r := Step(State(t, CurrentRows(t)), rec, env);
            && (r.Success? <==> StepFresh(t, rec, env).Success?)
            && (r.Success? ==> r.value.table == StepFresh(t, rec, env).value)
  {
  }

  /** The fold over a batch; the first rejected record rolls the whole batch back. */
  function MergeBatchFresh(t: Table, batch: seq<Incoming>, env: Env): (o: BatchOutcome)
    ensures o.Committed? ==> |o.kinds| == |batch|
    decreases |batch|
  {
    if |batch| == 0 then Committed(t, [])
    else
      var kind := Classify(CurrentRows(t), batch[0]);
      match StepFresh(t, batch[0], env)
      case Failure(e) => RolledBack(e)
      case Success(next) =>
        match MergeBatchFresh(next, batch[1..], env)
        case RolledBack(e) => RolledBack(e)
        case Committed(u, kinds) => Committed(u, [kind] + kinds)
  }

  /**
   * The corrected fold over a non-empty batch commits exactly when the step
   * on the first record succeeds and the fold over the rest commits; it then
   * ends in the rest's table, with the first record's classification in front.
   */
  lemma MergeBatchFreshUnfold(t: Table, batch: seq<Incoming>, env: Env)
    requires |batch| > 0
    ensures var o := MergeBatchFresh(t, batch, env);
            var s := StepFresh(t, batch[0], env);
            && (o.Committed? <==> s.Success? && MergeBatchFresh(s.value, batch[1..], env).Committed?)
            && (o.Committed? ==>
                  var p := MergeBatchFresh(s.value, batch[1..], env);
                  o == Committed(p.table, [Classify(CurrentRows(t), batch[0])] + p.kinds))
  {
  }

  /**
   * What each classification of a committed corrected batch means: record
   * `i` is classified against the current versions of the table the records
   * before it left.
   */
  lemma {:induction false} MergeBatchFreshKinds(t: Table, batch: seq<Incoming>, env: Env)
    requires MergeBatchFresh(t, batch, env).Committed?
    ensures forall i :: 0 <= i < |batch| ==>
              && MergeBatchFresh(t, batch[..i], env).Committed?
              && MergeBatchFresh(t, batch, env).kinds[i]
                 == Classify(CurrentRows(MergeBatchFresh(t, batch[..i], env).table), batch[i])
    decreases |batch|
  {
    if |batch| > 0 {
      var rest := batch[1..];
      MergeBatchFreshUnfold(t, batch, env);
      var next := StepFresh(t, batch[0], env).value;
      MergeBatchFreshKinds(next, rest, env);
      var kinds := MergeBatchFresh(t, batch, env).kinds;
      forall i | 0 <= i < |batch|
        ensures MergeBatchFresh(t, batch[..i], env).Committed?
        ensures kinds[i] == Classify(CurrentRows(MergeBatchFresh(t, batch[..i], env).table), batch[i])
      {
        if i == 0 {
          assert batch[..0] == [];
        } else {
          var pre := batch[..i];
          assert pre[0] == batch[0] && pre[1..] == rest[..i - 1];
          assert batch[i] == rest[i - 1];
          MergeBatchFreshUnfold(t, pre, env);
        }
      }
    }
  }

  /**
   * All or nothing for the corrected merge: with every price convertible it
   * commits, and a rollback names a record of the batch whose price does not
   * convert.
   */
  lemma {:induction false} MergeBatchFreshRejection(t: Table, batch: seq<Incoming>, env: Env)
    ensures (forall i :: 0 <= i < |batch| ==> env.priceConverts(batch[i].attrs.price))
            ==> MergeBatchFresh(t, batch, env).Committed?
    ensures var o := MergeBatchFresh(t, batch, env);
            o.RolledBack? ==>
              exists i :: 0 <= i < |batch| && batch[i].productId == o.reason.productId
                          && batch[i].attrs.price == o.reason.price
                          && !env.priceConverts(batch[i].attrs.price)
    decreases |batch|
  {
    if |batch| > 0 {
      var rest := batch[1..];
      assert forall j :: 0 <= j < |rest| ==> rest[j] == batch[j + 1];
      match StepFresh(t, batch[0], env)
      case Failure(e) =>
      case Success(next) =>
        MergeBatchFreshRejection(next, rest, env);
        var o := MergeBatchFresh(next, rest, env);
        if o.RolledBack? {
          var i :| 0 <= i < |rest| && rest[i].productId == o.reason.productId
                   && rest[i].attrs.price == o.reason.price
                   && !env.priceConverts(rest[i].attrs.price);
          assert batch[i + 1] == rest[i];
        }
    }
  }

  /** A step against a snapshot that classifies the record as the table does is the corrected step. */
  lemma StepMatchesFresh(st: State, rec: Incoming, env: Env)
    requires Classify(st.snapshot, rec) == Classify(CurrentRows(st.table), rec)
    ensures var r := Step(st, rec, env);
            var f := StepFresh(st.table, rec, env);
            && (r.Success? <==> f.Success?)
            && (r.Success? ==> r.value.table == f.value)
            && (r.Failure? ==> r.error == f.error)
  {
  }

  /** Over a batch of products not yet merged, the fold as written and the corrected fold agree. */
  lemma {:induction false} MergeRowsMatchesFresh(st: State, batch: seq<Incoming>, env: Env,
                                                 t0: Table, done: seq<Incoming>)
    requires Tracks(st, t0, done)
    requires AtMostOneCurrent(t0)
    requires DistinctIds(batch)
    requires Ids(batch) !! Ids(done)
    ensures var r := MergeRows(st, batch, env);
            var o := MergeBatchFresh(st.table, batch, env);
            && (r.Success? <==> o.Committed?)
            && (r.Success? ==> o == Committed(r.value.state.table, r.value.kinds))
            && (r.Failure? ==> o == RolledBack(r.error))
    decreases |batch|
  {
    if |batch| > 0 {
      var rec := batch[0];
      var rest := batch[1..];
      var x := rec.productId;
      assert Matches(st.snapshot, x) == Matches(CurrentRows(st.table), x);
      ClassifyBySameMatches(st.snapshot, CurrentRows(st.table), rec);
      StepMatchesFresh(st, rec, env);
      MergeRowsUnfold(st, batch, env);
      MergeBatchFreshUnfold(st.table, batch, env);
      if Step(st, rec, env).Success? {
        var next := Step(st, rec, env).value;
        StepTracks(st, rec, env, t0, done);
        RestStaysDisjoint(batch, done);
        MergeRowsMatchesFresh(next, rest, env, t0, done + [rec]);
      }
    }
  }

  /**
   * On a batch of distinct products, starting from unique keys and at most
   * one current version per product, the corrected merge does exactly what
   * the merge as written does: the fix changes nothing on such batches.
   */
  lemma FreshAgreesOnDistinct(t: Table, batch: seq<Incoming>, env: Env)
    requires KeysUnique(t) && AtMostOneCurrent(t)
    requires DistinctIds(batch)
    ensures MergeBatchFresh(t, batch, env) == MergeBatch(t, batch, env)
  {
    assert Ids([]) == {};
    MergeRowsMatchesFresh(State(t, CurrentRows(t)), batch, env, t, []);
  }

  /** No later record of the batch is for the same product as record `i`. */
  ghost predicate LastFor(batch: seq<Incoming>, i: int)
    requires 0 <= i < |batch|
  {
    forall j :: i < j < |batch| ==> batch[j].productId != batch[i].productId
  }

  /**
   * One step keeps keys unique and at most one current version per product,
   * leaves the record's product with exactly one current version carrying
   * its values, and leaves every other product's current versions alone.
   */
  lemma StepFreshKeeps(t: Table, rec: Incoming, env: Env)
    requires KeysUnique(t) && AtMostOneCurrent(t)
    requires StepFresh(t, rec, env).Success?
    ensures var u := StepFresh(t, rec, env).value;
            && KeysUnique(u)
            && AtMostOneCurrent(u)
            && Settled(u, rec)
            && forall id :: id != rec.productId ==> CurrentOf(u, id) == CurrentOf(t, id)
  {
    var x := rec.productId;
    var c := CurrentOf(t, x);
    assert |c| <= 1;
    var u := StepFresh(t, rec, env).value;
    match Classify(CurrentRows(t), rec)
    case New =>
      InsertNewEffect(t, rec, env);
      assert AtMostOneCurrent(u) by {
        forall id ensures |CurrentOf(u, id)| <= 1
        {
          if id != x {
            assert |CurrentOf(t, id)| <= 1;
          }
        }
      }
    case Unchanged =>
      assert c[0] in c;
    case Changed(cur) =>
      assert cur in c;
      OnlyCurrent(c, cur);
      CloseAndInsertEffect(t, cur, rec, env);
      assert AtMostOneCurrent(u) by {
        forall id ensures |CurrentOf(u, id)| <= 1
        {
          if id != x {
            assert |CurrentOf(t, id)| <= 1;
          }
        }
      }
  }

  /**
   * Over a whole fold: keys stay unique, no product gets a second current
   * version, the last record of each product in the batch is the one whose
   * values are current, and products not in the batch are untouched.
   */
  lemma {:induction false} MergeBatchFreshKeeps(t: Table, batch: seq<Incoming>, env: Env)
    requires KeysUnique(t) && AtMostOneCurrent(t)
    requires MergeBatchFresh(t, batch, env).Committed?
    ensures var u := MergeBatchFresh(t, batch, env).table;
            && KeysUnique(u)
            && AtMostOneCurrent(u)
            && (forall i :: 0 <= i < |batch| && LastFor(batch, i) ==> Settled(u, batch[i]))
            && (forall id :: id !in Ids(batch) ==> CurrentOf(u, id) == CurrentOf(t, id))
    decreases |batch|
  {
    if |batch| > 0 {
      var rec := batch[0];
      var rest := batch[1..];
      var next := StepFresh(t, rec, env).value;
      StepFreshKeeps(t, rec, env);
      MergeBatchFreshKeeps(next, rest, env);
      var u := MergeBatchFresh(t, batch, env).table;
      assert u == MergeBatchFresh(next, rest, env).table;
      LastForRest(batch);
      forall i | 0 <= i < |batch| && LastFor(batch, i)
        ensures Settled(u, batch[i])
      {
        if i > 0 {
          assert batch[i] == rest[i - 1];
        }
      }
    }
  }

  /** What the rest of a batch says about the products of the whole batch. */
  lemma LastForRest(batch: seq<Incoming>)
    requires |batch| > 0
    ensures var rest := batch[1..];
            && (LastFor(batch, 0) ==> batch[0].productId !in Ids(rest))
            && (forall i :: 0 < i < |batch| && LastFor(batch, i) ==> LastFor(rest, i - 1))
            && (forall id :: id in Ids(rest) ==> id in Ids(batch))
  {
    var rest := batch[1..];
    assert forall j :: 0 <= j < |rest| ==> rest[j] == batch[j + 1];
  }

  /** The corrected fold only ever extends the table, like the merge as written. */
  lemma {:induction false} MergeBatchFreshExtends(t: Table, batch: seq<Incoming>, env: Env)
    requires MergeBatchFresh(t, batch, env).Committed?
    ensures Extends(t, MergeBatchFresh(t, batch, env).table, env.today)
    decreases |batch|
  {
    if |batch| == 0 {
      assert Extends(t, t, env.today);
    } else {
      var next := StepFresh(t, batch[0], env).value;
      StepFreshAgrees(t, batch[0], env);
      StepExtends(State(t, CurrentRows(t)), batch[0], env);
      MergeBatchFreshExtends(next, batch[1..], env);
      ExtendsTransitive(t, next, MergeBatchFresh(t, batch, env).table, env.today);
    }
  }

  /**
   * On the input that breaks the merge as written, two changed records for
   * one product, the corrected merge leaves one current version: the second
   * record's.
   */
  lemma FreshSettlesRepeatedProduct(t: Table, cur: Row, r1: Incoming, r2: Incoming, env: Env)
    requires KeysUnique(t) && AtMostOneCurrent(t)
    requires CurrentOf(t, cur.productId) == [cur]
    requires r1.productId == cur.productId && r2.productId == cur.productId
    requires env.priceConverts(r1.attrs.price) && env.priceConverts(r2.attrs.price)
    ensures MergeBatchFresh(t, [r1, r2], env).Committed?
    ensures var c := CurrentOf(MergeBatchFresh(t, [r1, r2], env).table, cur.productId);
            |c| == 1 && c[0].attrs == r2.attrs
  {
    var next := StepFresh(t, r1, env).value;
    var last := StepFresh(next, r2, env).value;
    assert [r1, r2][1..] == [r2];
    assert [r2][1..] == [];
    assert MergeBatchFresh(last, [], env).Committed?;
    assert MergeBatchFresh(next, [r2], env).Committed?;
    assert MergeBatchFresh(t, [r1, r2], env).Committed?;
    MergeBatchFreshKeeps(t, [r1, r2], env);
    assert LastFor([r1, r2], 1);
  }
}

=== FILE: scd_merge.dfy ===
/**
 * The SCD Type-2 merge of one batch into `product_dim`, as `apply_scd_for_df`
 * performs it: a left fold over the batch that threads the table and the
 * snapshot of current versions taken when the batch starts.
 *
 * The snapshot is re-read only after a new product is inserted. After a
 * changed product is closed and re-inserted the snapshot is left as it was,
 * so a second record for that product in the same batch, when no
 * new-product record comes between them, is compared with the version that
 * has just been closed.
 */
module ScdMerge {
  import opened Outcome
  import opened Dimension
  import opened ChangeDetection

  /**
   * What the merge takes from outside: the day the batch runs on, the audit
   * stamp given to the row inserted with a key, and whether `float()`
   * accepts a price (the conversion done on every insert, before the row
   * reaches the database).
   */
  datatype Env = Env(today: int, stamp: nat -> string, priceConverts: string -> bool)

  /** The table and the snapshot of current versions the merge compares against. */
  datatype State = State(table: Table, snapshot: Table)

  /** Why a batch's unit of work was rolled back. */
  datatype Rejection = PriceNotConvertible(productId: string, price: string)

  /** The version `rec` is inserted as: current, open, starting today, under the next key. */
  function NewVersion(t: Table, rec: Incoming, env: Env): Row
  {
    var k := NextKey(t);
    Row(k, rec.productId, rec.attrs, env.today, Open, true, env.stamp(k))
  }

  /** How many records of a classified batch write to the table. */
  function Writes(kinds: seq<Kind>): (n: nat)
    ensures n <= |kinds|
  {
    if |kinds| == 0 then 0
    else (if kinds[0] == Unchanged then 0 else 1) + Writes(kinds[1..])
  }

  /** The write of the new-product path: the record's version is appended. */
  function InsertNew(t: Table, rec: Incoming, env: Env): (u: Table)
    ensures |u| == |t| + 1
  {
    t + [NewVersion(t, rec, env)]
  }

  /**
   * The writes of the changed path: the version with the current version's
   * key is closed on the day before today, then the record's version is
   * appended. Closing changes no key, so the appended key is the one
   * AUTOINCREMENT hands out after the closing as well.
   */
  function CloseAndInsert(t: Table, cur: Row, rec: Incoming, env: Env): (u: Table)
    ensures |u| == |t| + 1
  {
    CloseVersion(t, cur.key, env.today - 1) + [NewVersion(t, rec, env)]
  }

  /**
   * The new-product path appends exactly one row, carrying the record's id
   * and values, open and current from today, under a key larger than every
   * key in use; every earlier row stays as it was.
   */
  lemma InsertNewWrites(t: Table, rec: Incoming, env: Env)
    ensures var u := InsertNew(t, rec, env);
            && |u| == |t| + 1
            && (forall i :: 0 <= i < |t| ==> u[i] == t[i])
            && u[|t|].productId == rec.productId
            && u[|t|].attrs == rec.attrs
            && u[|t|].startDate == env.today
            && u[|t|].endDate == Open
            && u[|t|].isCurrent
            && (forall o :: o in t ==> o.key < u[|t|].key)
  {
  }

  /**
   * The changed path closes the row whose key is the current version's key,
   * and no other, on the day before today; then it appends the record's
   * version, open and current from today, under a key larger than every key
   * in use.
   */
  lemma CloseAndInsertWrites(t: Table, cur: Row, rec: Incoming, env: Env)
    ensures var u := CloseAndInsert(t, cur, rec, env);
            && |u| == |t| + 1
            && (forall i :: 0 <= i < |t| && t[i].key != cur.key ==> u[i] == t[i])
            && (forall i :: 0 <= i < |t| && t[i].key == cur.key ==> u[i] == t[i].Closed(env.today - 1))
            && u[|t|].productId == rec.productId
            && u[|t|].attrs == rec.attrs
            && u[|t|].startDate == env.today
            && u[|t|].endDate == Open
            && u[|t|].isCurrent
            && (forall o :: o in t ==> o.key < u[|t|].key)
  {
  }

  /**
   * The changed path takes the closed version out of every product's current
   * versions and adds the new version to the current versions of its product.
   */
  lemma CurrentOfCloseAndInsert(t: Table, cur: Row, rec: Incoming, env: Env, id: string)
    ensures CurrentOf(CloseAndInsert(t, cur, rec, env), id)
            == WithoutKey(CurrentOf(t, id), cur.key)
               + (if id == rec.productId then [NewVersion(t, rec, env)] else [])
  {
    var d := env.today - 1;
    var closed := CloseVersion(t, cur.key, d);
    var nv := NewVersion(t, rec, env);
    assert CloseAndInsert(t, cur, rec, env) == closed + [nv];
    CurrentOfClose(t, cur.key, d, id);
    CurrentOfAppend(closed, nv, id);
    assert nv.isCurrent && nv.productId == rec.productId;
  }

  /** A changed record replaces the only current version of its product with its own. */
  lemma ChangedOnce(t: Table, cur: Row, rec: Incoming, env: Env)
    requires CurrentOf(t, cur.productId) == [cur]
    requires rec.productId == cur.productId
    ensures cur.key < NextKey(t)
    ensures CurrentOf(CloseAndInsert(t, cur, rec, env), cur.productId) == [NewVersion(t, rec, env)]
  {
    assert cur in CurrentOf(t, cur.productId);
    CurrentOfCloseAndInsert(t, cur, rec, env, cur.productId);
    WithoutKeySingle(cur, cur.key);
    assert [] + [NewVersion(t, rec, env)] == [NewVersion(t, rec, env)];
  }

  /**
   * Inserting a product that has no current version makes the new version
   * its only current one, keeps every other product's current versions and
   * keeps keys unique.
   */
  lemma InsertNewEffect(t: Table, rec: Incoming, env: Env)
    requires KeysUnique(t)
    requires CurrentOf(t, rec.productId) == []
    ensures var u := InsertNew(t, rec, env);
            && KeysUnique(u)
            && CurrentOf(u, rec.productId) == [NewVersion(t, rec, env)]
            && forall id :: id != rec.productId ==> CurrentOf(u, id) == CurrentOf(t, id)
  {
    var x := rec.productId;
    var nv := NewVersion(t, rec, env);
    AppendKeepsKeysUnique(t, nv);
    forall id ensures CurrentOf(t + [nv], id) == CurrentOf(t, id) + (if id == x then [nv] else [])
    {
      CurrentOfAppend(t, nv, id);
    }
    assert CurrentOf(t, x) + [nv] == [nv];
  }

  /** The changed path changes no key and appends a fresh one, so keys stay unique. */
  lemma CloseAndInsertKeepsKeysUnique(t: Table, cur: Row, rec: Incoming, env: Env)
    requires KeysUnique(t)
    ensures KeysUnique(CloseAndInsert(t, cur, rec, env))
  {
    var d := env.today - 1;
    var closed := CloseVersion(t, cur.key, d);
    var nv := NewVersion(t, rec, env);
    assert KeysUnique(closed) by {
      CloseKeepsKeysUnique(t, cur.key, d);
    }
    assert forall o :: o in closed ==> o.key < nv.key by {
      CloseKeepsMaxKey(t, cur.key, d);
      assert NextKey(closed) == nv.key;
    }
    AppendKeepsKeysUnique(closed, nv);
  }

  /** The changed path for one product leaves the current versions of every other product alone. */
  lemma CloseAndInsertOtherProduct(t: Table, cur: Row, rec: Incoming, env: Env, id: string)
    requires KeysUnique(t)
    requires cur in t && cur.productId == rec.productId && id != rec.productId
    ensures CurrentOf(CloseAndInsert(t, cur, rec, env), id) == CurrentOf(t, id)
  {
    var d := env.today - 1;
    var closed := CloseVersion(t, cur.key, d);
    var nv := NewVersion(t, rec, env);
    assert CurrentOf(closed, id) == CurrentOf(t, id) by {
      CloseOtherProduct(t, cur, d, id);
    }
    assert CurrentOf(closed + [nv], id) == CurrentOf(closed, id) by {
      CurrentOfAppend(closed, nv, id);
      assert CurrentOf(closed, id) + [] == CurrentOf(closed, id);
    }
  }

  /**
   * Closing the only current version of a product and inserting the
   * record's version makes that version the product's only current one,
   * keeps every other product's current versions and keeps keys unique.
   */
  lemma CloseAndInsertEffect(t: Table, cur: Row, rec: Incoming, env: Env)
    requires KeysUnique(t)
    requires CurrentOf(t, rec.productId) == [cur]
    ensures var u := CloseAndInsert(t, cur, rec, env);
            && KeysUnique(u)
            && CurrentOf(u, rec.productId) == [NewVersion(t, rec, env)]
            && forall id :: id != rec.productId ==> CurrentOf(u, id) == CurrentOf(t, id)
  {
    var x := rec.productId;
    var d := env.today - 1;
    assert cur in CurrentOf(t, x);
    ChangedOnce(t, cur, rec, env);
    CloseAndInsertKeepsKeysUnique(t, cur, rec, env);
    forall id | id != x
      ensures CurrentOf(CloseAndInsert(t, cur, rec, env), id) == CurrentOf(t, id)
    {
      CloseAndInsertOtherProduct(t, cur, rec, env, id);
    }
  }

  /** The transition the merge applies for one record. */
  function Step(st: State, rec: Incoming, env: Env): (r: Result<State, Rejection>)
    ensures env.priceConverts(rec.attrs.price) ==> r.Success?
    ensures r.Failure? ==>
              r.error == PriceNotConvertible(rec.productId, rec.attrs.price)
              && !env.priceConverts(rec.attrs.price)
    ensures r.Success? ==>
              |r.value.table| == |st.table| + Writes([Classify(st.snapshot, rec)])
  {
    match Classify(st.snapshot, rec)
    case New =>
      if !env.priceConverts(rec.attrs.price) then
        Failure(PriceNotConvertible(rec.productId, rec.attrs.price))
      else
        var t := InsertNew(st.table, rec, env);
        Success(State(t, CurrentRows(t)))
    case Unchanged =>
      Success(st)
    case Changed(cur) =>
      if !env.priceConverts(rec.attrs.price) then
        Failure(PriceNotConvertible(rec.productId, rec.attrs.price))
      else
        Success(State(CloseAndInsert(st.table, cur, rec, env), st.snapshot))
  }

  /** The result of a fold: the final state and the classification of each record. */
  datatype Pass = Pass(state: State, kinds: seq<Kind>)

  /** The loop over the batch; the first rejected record abandons the whole fold. */
  function MergeRows(st: State, batch: seq<Incoming>, env: Env): (r: Result<Pass, Rejection>)
    ensures r.Success? ==> |r.value.kinds| == |batch|
    ensures r.Success? ==> |r.value.state.table| == |st.table| + Writes(r.value.kinds)
    decreases |batch|
  {
    if |batch| == 0 then Success(Pass(st, []))
    else
      var kind := Classify(st.snapshot, batch[0]);
      match Step(st, batch[0], env)
      case Failure(e) => Failure(e)
      case Success(next) =>
        match MergeRows(next, batch[1..], env)
        case Failure(e) => Failure(e)
        case Success(p) =>
          assert ([kind] + p.kinds)[1..] == p.kinds;
          Success(Pass(p.state, [kind] + p.kinds))
  }

  /**
   * A fold over a non-empty batch succeeds exactly when the step on the
   * first record and the fold over the rest succeed; it then ends in the
   * rest's state, with the first record's classification in front.
   */
  lemma MergeRowsUnfold(st: State, batch: seq<Incoming>, env: Env)
    requires |batch| > 0
    ensures var r := MergeRows(st, batch, env);
            var s := Step(st, batch[0], env);
            && (r.Success? <==> s.Success? && MergeRows(s.value, batch[1..], env).Success?)
            && (r.Success? ==>
                  var p := MergeRows(s.value, batch[1..], env).value;
                  r.value == Pass(p.state, [Classify(st.snapshot, batch[0])] + p.kinds))
  {
  }

  /**
   * What each classification of a successful fold means: record `i` is
   * classified against the snapshot the fold holds after the records before
   * it, so the records that are not `Unchanged` are exactly the new and
   * changed ones, as the fold sees them.
   */
  lemma {:induction false} MergeRowsKinds(st: State, batch: seq<Incoming>, env: Env)
    requires MergeRows(st, batch, env).Success?
    ensures forall i :: 0 <= i < |batch| ==>
              && MergeRows(st, batch[..i], env).Success?
              && MergeRows(st, batch, env).value.kinds[i]
                 == Classify(MergeRows(st, batch[..i], env).value.state.snapshot, batch[i])
    decreases |batch|
  {
    if |batch| > 0 {
      var rest := batch[1..];
      MergeRowsUnfold(st, batch, env);
      var next := Step(st, batch[0], env).value;
      MergeRowsKinds(next, rest, env);
      var kinds := MergeRows(st, batch, env).value.kinds;
      forall i | 0 <= i < |batch|
        ensures MergeRows(st, batch[..i], env).Success?
        ensures kinds[i] == Classify(MergeRows(st, batch[..i], env).value.state.snapshot, batch[i])
      {
        if i == 0 {
          assert batch[..0] == [];
        } else {
          MergeRowsPrefixUnfold(st, batch, env, i);
          assert batch[i] == rest[i - 1];
          assert kinds[i] == MergeRows(next, rest, env).value.kinds[i - 1];
        }
      }
    }
  }

  /** A non-empty prefix of a batch whose first step succeeds folds as that step and a prefix of the rest. */
  lemma MergeRowsPrefixUnfold(st: State, batch: seq<Incoming>, env: Env, i: nat)
    requires 0 < i <= |batch|
    requires Step(st, batch[0], env).Success?
    ensures var next := Step(st, batch[0], env).value;
            var r := MergeRows(st, batch[..i], env);
            var p := MergeRows(next, batch[1..][..i - 1], env);
            && (r.Success? <==> p.Success?)
            && (r.Success? ==> r.value.state == p.value.state)
  {
    var pre := batch[..i];
    assert pre[0] == batch[0] && pre[1..] == batch[1..][..i - 1];
    MergeRowsUnfold(st, pre, env);
  }

  /** What one batch's transaction ends in. */
  datatype BatchOutcome = Committed(table: Table, kinds: seq<Kind>) | RolledBack(reason: Rejection)

  /** `apply_scd_for_df`: read the snapshot, fold over the batch, commit or roll back. */
  function MergeBatch(t: Table, batch: seq<Incoming>, env: Env): (o: BatchOutcome)
    ensures o.Committed? ==> |o.kinds| == |batch| && |o.table| == |t| + Writes(o.kinds)
  {
    match MergeRows(State(t, CurrentRows(t)), batch, env)
    case Success(p) => Committed(p.state.table, p.kinds)
    case Failure(e) => RolledBack(e)
  }

  /**
   * Only a price `float()` refuses rejects the fold: with every price
   * accepted it succeeds, and a rejection names a record of the batch whose
   * price is refused. A refused price does not always reject it, since an unchanged
   * record is never inserted and its price never converted.
   */
  lemma {:induction false} MergeRowsRejection(st: State, batch: seq<Incoming>, env: Env)
    ensures (forall i :: 0 <= i < |batch| ==> env.priceConverts(batch[i].attrs.price))
            ==> MergeRows(st, batch, env).Success?
    ensures var r := MergeRows(st, batch, env);
            r.Failure? ==>
              exists i :: 0 <= i < |batch| && batch[i].productId == r.error.productId
                          && batch[i].attrs.price == r.error.price
                          && !env.priceConverts(batch[i].attrs.price)
    decreases |batch|
  {
    if |batch| > 0 {
      match Step(st, batch[0], env)
      case Failure(e) =>
      case Success(next) =>
        MergeRowsRejection(next, batch[1..], env);
        var r := MergeRows(next, batch[1..], env);
        if r.Failure? {
          var i :| 0 <= i < |batch[1..]| && batch[1..][i].productId == r.error.productId
                   && batch[1..][i].attrs.price == r.error.price
                   && !env.priceConverts(batch[1..][i].attrs.price);
          assert batch[i + 1] == batch[1..][i];
        }
    }
  }

  /**
   * All or nothing: a batch commits when `float()` accepts every price; a
   * rolled-back batch leaves the table exactly as it was and names a record
   * of the batch whose price `float()` refuses.
   */
  lemma BatchAllOrNothing(t: Table, batch: seq<Incoming>, env: Env)
    ensures (forall i :: 0 <= i < |batch| ==> env.priceConverts(batch[i].attrs.price))
            ==> MergeBatch(t, batch, env).Committed?
    ensures var o := MergeBatch(t, batch, env);
            o.RolledBack? ==>
              && Stored(t, o) == t
              && exists i :: 0 <= i < |batch| && batch[i].productId == o.reason.productId
                             && batch[i].attrs.price == o.reason.price
                             && !env.priceConverts(batch[i].attrs.price)
  {
    MergeRowsRejection(State(t, CurrentRows(t)), batch, env);
  }

  /** The table the store holds once the batch's transaction has ended. */
  function Stored(t: Table, o: BatchOutcome): Table
  {
    if o.Committed? then o.table else t
  }

  // ---------------------------------------------------------------------------
  // The three transitions of one record
  // ---------------------------------------------------------------------------

  /** A product with no current version is inserted and the snapshot is re-read. */
  lemma StepNew(st: State, rec: Incoming, env: Env)
    requires Classify(st.snapshot, rec) == New
    requires env.priceConverts(rec.attrs.price)
    ensures var u := InsertNew(st.table, rec, env);
            Step(st, rec, env) == Success(State(u, CurrentRows(u)))
  {
  }

  /** A product whose tracked values all match its current version leaves the state as it was. */
  lemma StepUnchanged(st: State, rec: Incoming, env: Env)
    requires Classify(st.snapshot, rec) == Unchanged
    ensures Step(st, rec, env) == Success(st)
  {
  }

  /** A changed product is closed and re-inserted; the snapshot is not re-read. */
  lemma StepChanged(st: State, rec: Incoming, env: Env, cur: Row)
    requires Classify(st.snapshot, rec) == Changed(cur)
    requires env.priceConverts(rec.attrs.price)
    ensures Step(st, rec, env) == Success(State(CloseAndInsert(st.table, cur, rec, env), st.snapshot))
  {
  }

  /** A record that must be inserted but whose price `float()` refuses rejects the step. */
  lemma StepRejected(st: State, rec: Incoming, env: Env)
    requires Classify(st.snapshot, rec) != Unchanged
    requires !env.priceConverts(rec.attrs.price)
    ensures Step(st, rec, env) == Failure(PriceNotConvertible(rec.productId, rec.attrs.price))
  {
  }

  /** Records differing only in untracked columns are merged identically. */
  lemma StepIgnoresUntracked(st: State, a: Incoming, b: Incoming, env: Env)
    requires a.productId == b.productId && a.attrs == b.attrs
    ensures Step(st, a, env) == Step(st, b, env)
  {
    ClassifyIgnoresUntracked(st.snapshot, a, b);
  }

  // ---------------------------------------------------------------------------
  // History is only ever extended
  // ---------------------------------------------------------------------------

  /**
   * A version written by a batch that runs on `today`: open and current, or
   * closed the day before. Whenever a version written today is closed the
   * same day, it ends on the day before it starts. That happens, among other
   * ways, through a later file of the same run or a second run on the same
   * day, and within one batch through a changed record compared with a
   * version written earlier in the batch, which the snapshot holds after any
   * new-product insert re-reads it.
   */
  ghost predicate WrittenOn(r: Row, today: int)
  {
    && r.startDate == today
    && ((r.endDate == Open && r.isCurrent) || (r.endDate == EndsOn(today - 1) && !r.isCurrent))
  }

  /**
   * `u` extends `t` the way the merge does on `today`: no row is deleted or
   * re-keyed, an old row is at most closed on the day before, and every added
   * row was written today under a key larger than every old one.
   */
  ghost predicate Extends(t: Table, u: Table, today: int)
  {
    && |t| <= |u|
    && (forall i :: 0 <= i < |t| ==> u[i] == t[i] || u[i] == t[i].Closed(today - 1))
    && (forall i :: |t| <= i < |u| ==> WrittenOn(u[i], today))
    && (forall i, j :: 0 <= i < |t| <= j < |u| ==> t[i].key < u[j].key)
  }

  /** A table extends itself: a record that writes nothing keeps history. */
  lemma ExtendsSelf(t: Table, today: int)
    ensures Extends(t, t, today)
  {
  }

  /** History extension composes over consecutive records. */
  lemma ExtendsTransitive(t: Table, t1: Table, t2: Table, today: int)
    requires Extends(t, t1, today) && Extends(t1, t2, today)
    ensures Extends(t, t2, today)
  {
    forall i, j | 0 <= i < |t| <= j < |t2|
      ensures t[i].key < t2[j].key
    {
      assert t1[i].key == t[i].key;
      if j < |t1| {
        assert t2[j].key == t1[j].key;
      }
    }
  }

  /** One appended row written today, old rows at most closed: the table is extended. */
  lemma ExtendsByOne(t: Table, u: Table, today: int)
    requires |u| == |t| + 1
    requires forall i :: 0 <= i < |t| ==> u[i] == t[i] || u[i] == t[i].Closed(today - 1)
    requires WrittenOn(u[|t|], today)
    requires forall o :: o in t ==> o.key < u[|t|].key
    ensures Extends(t, u, today)
  {
    forall i, j | 0 <= i < |t| <= j < |u|
      ensures t[i].key < u[j].key
    {
      assert t[i] in t;
    }
  }

  /** One record only extends history. */
  lemma StepExtends(st: State, rec: Incoming, env: Env)
    requires Step(st, rec, env).Success?
    ensures Extends(st.table, Step(st, rec, env).value.table, env.today)
  {
    var t := st.table;
    match Classify(st.snapshot, rec)
    case New =>
      StepNew(st, rec, env);
      InsertNewExtends(t, rec, env);
    case Unchanged =>
      StepUnchanged(st, rec, env);
    case Changed(cur) =>
      StepChanged(st, rec, env, cur);
      CloseAndInsertWrites(t, cur, rec, env);
      ExtendsByOne(t, CloseAndInsert(t, cur, rec, env), env.today);
  }

  /** The new-product insert only extends history. */
  lemma InsertNewExtends(t: Table, rec: Incoming, env: Env)
    ensures Extends(t, InsertNew(t, rec, env), env.today)
  {
    var u := InsertNew(t, rec, env);
    InsertNewWrites(t, rec, env);
    assert forall i :: 0 <= i < |t| ==> u[i] == t[i];
    ExtendsByOne(t, u, env.today);
  }

  /** Over a whole fold, rows are never deleted and keys never reassigned. */
  lemma {:induction false} MergeRowsExtends(st: State, batch: seq<Incoming>, env: Env)
    requires MergeRows(st, batch, env).Success?
    ensures Extends(st.table, MergeRows(st, batch, env).value.state.table, env.today)
    decreases |batch|
  {
    if |batch| > 0 {
      var next := Step(st, batch[0], env).value;
      StepExtends(st, batch[0], env);
      MergeRowsExtends(next, batch[1..], env);
      ExtendsTransitive(st.table, next.table, MergeRows(st, batch, env).value.state.table, env.today);
    }
  }

  /**
   * A committed batch keeps every existing row and key, changes old rows only
   * by closing them the day before, and grows the table by exactly the number
   * of new and changed records; a rolled-back batch leaves the table as it was.
   */
  lemma BatchExtends(t: Table, batch: seq<Incoming>, env: Env)
    ensures var o := MergeBatch(t, batch, env);
            && Extends(t, Stored(t, o), env.today)
            && (o.Committed? ==> |Stored(t, o)| == |t| + Writes(o.kinds))
            && (o.RolledBack? ==> Stored(t, o) == t)
  {
    var st := State(t, CurrentRows(t));
    if MergeRows(st, batch, env).Success? {
      MergeRowsExtends(st, batch, env);
    }
  }

  // ---------------------------------------------------------------------------
  // One current version per product
  // ---------------------------------------------------------------------------

  /** The product ids of a sequence of records. */
  function Ids(batch: seq<Incoming>): (s: set<string>)
    ensures forall i :: 0 <= i < |batch| ==> batch[i].productId in s
    ensures forall id :: id in s ==> exists i :: 0 <= i < |batch| && batch[i].productId == id
  {
    set i | 0 <= i < |batch| :: batch[i].productId
  }

  /** Merging one more record adds its id to the merged ids. */
  lemma IdsAppend(done: seq<Incoming>, rec: Incoming)
    ensures Ids(done + [rec]) == Ids(done) + {rec.productId}
  {
    var d := done + [rec];
    forall id | id in Ids(d)
      ensures id in Ids(done) + {rec.productId}
    {
      var i :| 0 <= i < |d| && d[i].productId == id;
      if i < |done| {
        assert done[i] == d[i];
      }
    }
    assert d[|done|] == rec;
    forall i | 0 <= i < |done|
      ensures done[i].productId in Ids(d)
    {
      assert d[i] == done[i];
    }
  }

  /** No product occurs twice in the batch. */
  ghost predicate DistinctIds(batch: seq<Incoming>)
  {
    forall i, j :: 0 <= i < j < |batch| ==> batch[i].productId != batch[j].productId
  }

  /**
   * The fold invariant for a batch without repeated products, after the
   * records `done` have been merged into the table that started as `t0`:
   * the snapshot is accurate for every product still to come, those products
   * are untouched, and every merged product has exactly one current version,
   * carrying the merged record's values.
   */
  ghost predicate Tracks(st: State, t0: Table, done: seq<Incoming>)
  {
    && KeysUnique(st.table)
    && (forall id :: id !in Ids(done) ==> Matches(st.snapshot, id) == CurrentOf(st.table, id))
    && (forall id :: id !in Ids(done) ==> CurrentOf(st.table, id) == CurrentOf(t0, id))
    && (forall i :: 0 <= i < |done| ==> Settled(st.table, done[i]))
  }

  /** `rec`'s product has exactly one current version, carrying `rec`'s values. */
  ghost predicate Settled(t: Table, rec: Incoming)
  {
    |CurrentOf(t, rec.productId)| == 1 && CurrentOf(t, rec.productId)[0].attrs == rec.attrs
  }

  /** A product with at most one current version that contains `cur` has exactly that one. */
  lemma OnlyCurrent(c: Table, cur: Row)
    requires |c| <= 1 && cur in c
    ensures c == [cur]
  {
  }

  /** The table grown by one row keeps what `Tracks` says of every other product. */
  lemma TracksOthers(st: State, u: Table, snap: Table, t0: Table, done: seq<Incoming>, rec: Incoming)
    requires Tracks(st, t0, done)
    requires rec.productId !in Ids(done)
    requires KeysUnique(u)
    requires forall id :: id != rec.productId ==> CurrentOf(u, id) == CurrentOf(st.table, id)
    requires forall id :: id != rec.productId && id !in Ids(done) ==> Matches(snap, id) == CurrentOf(u, id)
    requires Settled(u, rec)
    ensures Tracks(State(u, snap), t0, done + [rec])
  {
    var d := done + [rec];
    IdsAppend(done, rec);
    forall i | 0 <= i < |d|
      ensures Settled(u, d[i])
    {
      if i < |done| {
        assert d[i] == done[i];
        assert done[i].productId in Ids(done);
        assert Settled(st.table, done[i]);
      }
    }
  }

  /** A new product's insert keeps the fold invariant, with the product now merged. */
  lemma TracksNew(st: State, rec: Incoming, env: Env, t0: Table, done: seq<Incoming>)
    requires Tracks(st, t0, done)
    requires rec.productId !in Ids(done)
    requires Classify(st.snapshot, rec) == New
    ensures var u := InsertNew(st.table, rec, env);
            Tracks(State(u, CurrentRows(u)), t0, done + [rec])
  {
    var x := rec.productId;
    var t := st.table;
    var u := InsertNew(t, rec, env);
    assert Matches(st.snapshot, x) == CurrentOf(t, x);
    InsertNewEffect(t, rec, env);
    TracksOthers(st, u, CurrentRows(u), t0, done, rec);
  }

  /** An unchanged record keeps the fold invariant, with its product now merged. */
  lemma TracksUnchanged(st: State, rec: Incoming, t0: Table, done: seq<Incoming>)
    requires Tracks(st, t0, done)
    requires AtMostOneCurrent(t0)
    requires rec.productId !in Ids(done)
    requires Classify(st.snapshot, rec) == Unchanged
    ensures Tracks(st, t0, done + [rec])
  {
    var x := rec.productId;
    var c := CurrentOf(st.table, x);
    assert Matches(st.snapshot, x) == c;
    assert |CurrentOf(t0, x)| <= 1;
    assert c[0] in c;
    OnlyCurrent(c, c[0]);
    TracksOthers(st, st.table, st.snapshot, t0, done, rec);
  }

  /** A changed record's close and insert keep the fold invariant, with its product now merged. */
  lemma TracksChanged(st: State, rec: Incoming, env: Env, cur: Row, t0: Table, done: seq<Incoming>)
    requires Tracks(st, t0, done)
    requires AtMostOneCurrent(t0)
    requires rec.productId !in Ids(done)
    requires Classify(st.snapshot, rec) == Changed(cur)
    ensures Tracks(State(CloseAndInsert(st.table, cur, rec, env), st.snapshot), t0, done + [rec])
  {
    var x := rec.productId;
    var t := st.table;
    var c := CurrentOf(t, x);
    assert Matches(st.snapshot, x) == c;
    assert |CurrentOf(t0, x)| <= 1;
    assert c[0] in c;
    OnlyCurrent(c, cur);
    CloseAndInsertEffect(t, cur, rec, env);
    TracksOthers(st, CloseAndInsert(t, cur, rec, env), st.snapshot, t0, done, rec);
  }

  /** Any successful step on a product not yet merged keeps the fold invariant. */
  lemma StepTracks(st: State, rec: Incoming, env: Env, t0: Table, done: seq<Incoming>)
    requires Tracks(st, t0, done)
    requires AtMostOneCurrent(t0)
    requires rec.productId !in Ids(done)
    requires Step(st, rec, env).Success?
    ensures Tracks(Step(st, rec, env).value, t0, done + [rec])
  {
    match Classify(st.snapshot, rec)
    case New => TracksNew(st, rec, env, t0, done);
    case Unchanged => TracksUnchanged(st, rec, t0, done);
    case Changed(cur) => TracksChanged(st, rec, env, cur, t0, done);
  }

  /** Moving the first record of the rest onto the records already merged keeps their concatenation. */
  lemma MoveFirst(done: seq<Incoming>, batch: seq<Incoming>)
    requires |batch| > 0
    ensures (done + [batch[0]]) + batch[1..] == done + batch
  {
    assert batch == [batch[0]] + batch[1..];
  }

  /** After merging the first record, the rest of a distinct batch is still new to the fold. */
  lemma RestStaysDisjoint(batch: seq<Incoming>, done: seq<Incoming>)
    requires |batch| > 0
    requires DistinctIds(batch)
    requires Ids(batch) !! Ids(done)
    ensures DistinctIds(batch[1..])
    ensures Ids(batch[1..]) !! Ids(done + [batch[0]])
  {
    var rest := batch[1..];
    IdsAppend(done, batch[0]);
    forall id | id in Ids(rest)
      ensures id !in Ids(done + [batch[0]])
    {
      var j :| 0 <= j < |rest| && rest[j].productId == id;
      assert batch[j + 1] == rest[j];
    }
  }

  /** The fold invariant survives a whole batch of products not yet merged. */
  lemma {:induction false} MergeRowsTracks(st: State, batch: seq<Incoming>, env: Env,
                                           t0: Table, done: seq<Incoming>)
    requires Tracks(st, t0, done)
    requires AtMostOneCurrent(t0)
    requires DistinctIds(batch)
    requires Ids(batch) !! Ids(done)
    requires MergeRows(st, batch, env).Success?
    ensures Tracks(MergeRows(st, batch, env).value.state, t0, done + batch)
    decreases |batch|
  {
    if |batch| == 0 {
      assert done + batch == done;
    } else {
      var rec := batch[0];
      var rest := batch[1..];
      MergeRowsUnfold(st, batch, env);
      var next := Step(st, rec, env).value;
      StepTracks(st, rec, env, t0, done);
      var done' := done + [rec];
      MoveFirst(done, batch);
      RestStaysDisjoint(batch, done);
      MergeRowsTracks(next, rest, env, t0, done');
    }
  }

  /**
   * At most one current version per product, across a committed batch whose
   * products are distinct: every
   * product of the batch ends with exactly one current version, carrying the
   * batch's values, and every other product keeps its current versions.
   */
  lemma BatchOneCurrent(t: Table, batch: seq<Incoming>, env: Env)
    requires KeysUnique(t) && AtMostOneCurrent(t)
    requires DistinctIds(batch)
    requires MergeBatch(t, batch, env).Committed?
    ensures var u := MergeBatch(t, batch, env).table;
            && KeysUnique(u)
            && AtMostOneCurrent(u)
            && (forall i :: 0 <= i < |batch| ==>
                  |CurrentOf(u, batch[i].productId)| == 1
                  && CurrentOf(u, batch[i].productId)[0].attrs == batch[i].attrs)
            && (forall id :: id !in Ids(batch) ==> CurrentOf(u, id) == CurrentOf(t, id))
  {
    var st := State(t, CurrentRows(t));
    assert Ids([]) == {};
    MergeRowsTracks(st, batch, env, t, []);
    assert [] + batch == batch;
    var u := MergeBatch(t, batch, env).table;
    forall i | 0 <= i < |batch|
      ensures Settled(u, batch[i])
    {
    }
    forall id ensures |CurrentOf(u, id)| <= 1
    {
      if id in Ids(batch) {
        var i :| 0 <= i < |batch| && batch[i].productId == id;
        assert Settled(u, batch[i]);
      }
    }
  }

  /** The classification only reads the snapshot rows of the record's product. */
  lemma ClassifyBySameMatches(s1: Table, s2: Table, rec: Incoming)
    requires Matches(s1, rec.productId) == Matches(s2, rec.productId)
    ensures Classify(s1, rec) == Classify(s2, rec)
  {
  }

  /**
   * For a committed batch of distinct products, every record is classified
   * against the table as it stood before the batch: New exactly when its
   * product had no current version, Unchanged exactly when that version has
   * its values. So the table grows by exactly the new and changed records.
   */
  lemma BatchKinds(t: Table, batch: seq<Incoming>, env: Env)
    requires KeysUnique(t) && AtMostOneCurrent(t)
    requires DistinctIds(batch)
    requires MergeBatch(t, batch, env).Committed?
    ensures var o := MergeBatch(t, batch, env);
            forall i :: 0 <= i < |batch| ==> o.kinds[i] == Classify(CurrentRows(t), batch[i])
  {
    var st := State(t, CurrentRows(t));
    MergeRowsKinds(st, batch, env);
    forall i | 0 <= i < |batch|
      ensures MergeBatch(t, batch, env).kinds[i] == Classify(CurrentRows(t), batch[i])
    {
      KindAgainstStart(t, batch, env, i);
    }
  }

  /**
   * In a batch of distinct products, the snapshot the fold holds when it
   * reaches record `i` classifies that record as the starting table does.
   */
  lemma KindAgainstStart(t: Table, batch: seq<Incoming>, env: Env, i: nat)
    requires KeysUnique(t) && AtMostOneCurrent(t)
    requires DistinctIds(batch)
    requires i < |batch|
    requires MergeRows(State(t, CurrentRows(t)), batch[..i], env).Success?
    ensures Classify(MergeRows(State(t, CurrentRows(t)), batch[..i], env).value.state.snapshot, batch[i])
            == Classify(CurrentRows(t), batch[i])
  {
    var st := State(t, CurrentRows(t));
    var pre := batch[..i];
    var x := batch[i].productId;
    assert Tracks(MergeRows(st, pre, env).value.state, t, pre) by {
      assert forall j :: 0 <= j < |pre| ==> pre[j] == batch[j];
      assert DistinctIds(pre);
      assert Ids([]) == {};
      MergeRowsTracks(st, pre, env, t, []);
      assert [] + pre == pre;
    }
    assert x !in Ids(pre) by {
      assert forall j :: 0 <= j < |pre| ==> pre[j] == batch[j];
    }
    var sti := MergeRows(st, pre, env).value.state;
    assert Matches(sti.snapshot, x) == Matches(CurrentRows(t), x);
    ClassifyBySameMatches(sti.snapshot, CurrentRows(t), batch[i]);
  }

  // ---------------------------------------------------------------------------
  // Replaying a batch
  // ---------------------------------------------------------------------------

  /** A fold in which every record is unchanged writes nothing and classifies every record so. */
  lemma {:induction false} MergeRowsAllUnchanged(st: State, batch: seq<Incoming>, env: Env)
    requires forall i :: 0 <= i < |batch| ==> Classify(st.snapshot, batch[i]) == Unchanged
    ensures MergeRows(st, batch, env).Success?
    ensures MergeRows(st, batch, env).value.state == st
    ensures forall k :: k in MergeRows(st, batch, env).value.kinds ==> k == Unchanged
    decreases |batch|
  {
    if |batch| > 0 {
      assert Step(st, batch[0], env) == Success(st);
      MergeRowsAllUnchanged(st, batch[1..], env);
    }
  }

  /**
   * Idempotence: merging a committed batch of distinct products a second
   * time, on any day, classifies every record as unchanged and writes nothing.
   */
  lemma BatchIdempotent(t: Table, batch: seq<Incoming>, env: Env, env2: Env)
    requires KeysUnique(t) && AtMostOneCurrent(t)
    requires DistinctIds(batch)
    requires MergeBatch(t, batch, env).Committed?
    ensures var u := MergeBatch(t, batch, env).table;
            var again := MergeBatch(u, batch, env2);
            && again.Committed?
            && again.table == u
            && (forall k :: k in again.kinds ==> k == Unchanged)
  {
    var u := MergeBatch(t, batch, env).table;
    BatchOneCurrent(t, batch, env);
    var st := State(u, CurrentRows(u));
    forall i | 0 <= i < |batch|
      ensures Classify(st.snapshot, batch[i]) == Unchanged
    {
      var c := CurrentOf(u, batch[i].productId);
      assert c[0] in c;
      OnlyCurrent(c, c[0]);
      DiffersIffUnequal(batch[i].attrs, c[0].attrs);
    }
    MergeRowsAllUnchanged(st, batch, env2);
  }

  // ---------------------------------------------------------------------------
  // The stale snapshot
  // ---------------------------------------------------------------------------

  /**
   * A changed record compared with a version `cur` other than its product's
   * current one `v` leaves `v` current and adds a second current version.
   */
  lemma ChangedAgainstStale(t: Table, cur: Row, v: Row, rec: Incoming, env: Env)
    requires CurrentOf(t, rec.productId) == [v]
    requires v.key != cur.key
    ensures CurrentOf(CloseAndInsert(t, cur, rec, env), rec.productId) == [v, NewVersion(t, rec, env)]
  {
    CurrentOfCloseAndInsert(t, cur, rec, env, rec.productId);
    WithoutKeySingle(v, cur.key);
    assert [v] + [NewVersion(t, rec, env)] == [v, NewVersion(t, rec, env)];
  }

  /**
   * Closing the same version twice and inserting twice, as two changed
   * records for one product do when both are compared with the same stale
   * snapshot row, leaves both inserted versions current.
   */
  lemma ChangedTwiceTwoCurrent(t: Table, cur: Row, r1: Incoming, r2: Incoming, env: Env)
    requires CurrentOf(t, cur.productId) == [cur]
    requires r1.productId == cur.productId && r2.productId == cur.productId
    ensures var t1 := CloseAndInsert(t, cur, r1, env);
            var t2 := CloseAndInsert(t1, cur, r2, env);
            CurrentOf(t2, cur.productId) == [NewVersion(t, r1, env), NewVersion(t1, r2, env)]
  {
    ChangedOnce(t, cur, r1, env);
    ChangedAgainstStale(CloseAndInsert(t, cur, r1, env), cur, NewVersion(t, r1, env), r2, env);
  }

  /**
   * Without distinct products the invariant fails: two records for a product
   * that both differ from its current version, with no new-product record
   * between them, leave two current versions, because the second is compared
   * with the snapshot's already-closed row.
   */
  lemma StaleSnapshotTwoCurrent(t: Table, cur: Row, r1: Incoming, r2: Incoming, env: Env)
    requires CurrentOf(t, cur.productId) == [cur]
    requires r1.productId == cur.productId && r2.productId == cur.productId
    requires r1.attrs != cur.attrs && r2.attrs != cur.attrs
    requires env.priceConverts(r1.attrs.price) && env.priceConverts(r2.attrs.price)
    ensures MergeBatch(t, [r1, r2], env).Committed?
    ensures |CurrentOf(MergeBatch(t, [r1, r2], env).table, cur.productId)| == 2
  {
    var id := cur.productId;
    var snap := CurrentRows(t);
    assert Matches(snap, id) == [cur];
    DiffersIffUnequal(r1.attrs, cur.attrs);
    DiffersIffUnequal(r2.attrs, cur.attrs);
    assert Classify(snap, r1) == Changed(cur);
    assert Classify(snap, r2) == Changed(cur);
    var t1 := CloseAndInsert(t, cur, r1, env);
    var t2 := CloseAndInsert(t1, cur, r2, env);
    var st1 := State(t1, snap);
    var st2 := State(t2, snap);
    StepChanged(State(t, snap), r1, env, cur);
    StepChanged(st1, r2, env, cur);
    assert [r2][0] == r2 && [r2][1..] == [];
    assert MergeRows(st2, [], env) == Success(Pass(st2, []));
    assert [Changed(cur)] + [] == [Changed(cur)];
    assert MergeRows(st1, [r2], env) == Success(Pass(st2, [Changed(cur)]));
    assert [r1, r2][0] == r1 && [r1, r2][1..] == [r2];
    assert MergeRows(State(t, snap), [r1, r2], env).value.state == st2;
    ChangedTwiceTwoCurrent(t, cur, r1, r2, env);
  }
}
